=== FILE: README.md ===
# Job-matching portal core, modelled in Dafny

This project models the core of a job-matching web portal. The portal has three parts:

- a Vue client store (`src/stores/auth.js`) that keeps user profiles in a document store;
- an Express gateway (`server.js`) that forwards requests to an external matching service and answers with canned data when that service fails;
- the client router (`src/router/index.js`), whose guard keeps signed-out users off protected pages.

The model covers the following:

- **Display ids.** An id is derived from the sign-in email: the local part with everything but ASCII letters and digits removed. When that id is taken, random four-digit suffixes are appended. The base and at most nine suffixed candidates are probed against a username index; if all of them are taken, a tenth candidate is generated and returned without a probe (`Identity`).
- **Profile creation and repair.** `checkAndCreateUserProfile` is a transition on the profile map and the username index (`Repository`). It leaves a complete profile alone, repairs one with no display id, and creates and pushes a skeleton for a new user.
- **Domain inference.** When a profile has no domain list, tags are inferred from its preferred industry and its skills, with a fixed default (`DomainInference`). The rule is written twice in the client; here it is defined once and used by both call sites.
- **Profile sync.** The payload `seedUserProfile` posts to the gateway (`Sync`): career-page URLs become host names without `www.`, the industry defaults to `Technology`, and `update-urls` is only posted after a successful push.
- **Gateway handlers.** The handlers for `/api/update-user`, `/api/get-user/:displayId`, `/api/get-match-results/`, `/api/get-recommended-match-results/` and `/api/get-match-statistics/` are modelled as functions (`Gateway`). Each takes the request and the outcome of the upstream call, and gives the upstream call made and the response sent. The model includes input validation, payload coercion, the user-detail normalisation, and the canned fallbacks with their domain filter.
- **Navigation.** The route table, a route matcher, and the `beforeEach` guard (`Router`).
- **End to end.** How the client's calls meet the handlers (`EndToEnd`). Every payload the client pushes is forwarded unchanged. A gateway outage on the user-detail read clears the client's cached domain list.

JavaScript semantics are written out where the code depends on them. `JsValue` covers:

- truthiness, `||` and `?.`;
- `typeof v === 'object'`;
- `String(v)` on parsed JSON.

`Text` covers:

- `includes`;
- ASCII `toLowerCase`;
- `trim` with the white-space set of ECMA-262;
- `replace` with a string pattern, which replaces only the first occurrence.

I/O is turned into parameters:

- every network call becomes a `Reply` (`Ok(data)` or `Err`) passed in;
- the URL parser becomes a function parameter `hostOf`;
- `Math.random()` becomes a sequence of four-digit suffixes passed in.

Some behaviours of the code are easy to misread. The model keeps them as written:

- The allocation loop (src/stores/auth.js:221-235) never reports exhaustion. After ten collisions it returns the last generated candidate without checking it, so two profiles can end up with the same display id (`Repository.ExhaustedAllocationCanDuplicateDisplayId`). The repair path (src/stores/auth.js:210-215) can also produce a duplicate (`Repository.RepairCanDuplicateDisplayId`).
- The `technology` fallback (server.js:641-655) keeps two canned jobs, the engineer and the developer (`Gateway.TechnologyFallbackKeepsTwo`).
- The get-user normalisation (server.js:350-369) wraps only the singular `domain`. A truthy `domains` that is not an array is passed through unchanged (`Gateway.NormaliseKeepsNonArrayDomains`).
- `/api/update-user` (server.js:217) turns an `industry` of `[]` into the empty string (`Gateway.EmptyArrayIndustryForwardsEmpty`).
- Route protection (src/router/index.js:61-70) ignores letter case and a trailing slash. The redirect away from the login page compares the path exactly (`Router.MatcherAndGuardDisagreeOnCase`).

## Model

| member | source | states |
|---|---|---|
| Text.ReplaceFirstSpec | src/stores/auth.js:40 | `replace` with a string pattern does nothing when the pattern is absent; otherwise it exchanges the first occurrence (`indexOf`) for the replacement and keeps everything before and after it, so the length changes by the difference of the two |
| Text.TrimIsBlankIff | server.js:535-536 | `trim()` removes only white space, and only at the two ends: the input is a white-space prefix, the result and a white-space suffix; the result is empty exactly when every character is white space, and otherwise neither starts nor ends with white space |
| Text.DecimalRoundTrip | src/stores/auth.js:230-231 | the decimal rendering of a suffix reads back as the same number |
| Text.FourDigits | src/stores/auth.js:230-231 | a suffix in 1000..9999 renders as four digits with no leading zero |
| JsValue.Or | server.js:558 | `a \|\| b` is one of its operands and is truthy exactly when one of them is; it is `a` when `a` is truthy and `b` otherwise |
| JsValue.ToJsStringRules | server.js:216-217 | `String(v)` keeps a string; renders an integer in decimal that reads back as the number, with a leading `-` for a negative one; joins an array of strings with commas; and renders an array of `null` or missing values as commas alone |
| JsValue.JoinCommaSnoc | server.js:217 | joining an array with one more element appends a comma and that element |
| JsValue.ToJsStringExamples | server.js:529 | concrete values of `String(v)`: a string, `42`, `true`, an object as `[object Object]`, and `["a", null, "b"]` as `a,,b` |
| Identity.LocalPart | src/stores/auth.js:220 | `split('@')[0]` is a prefix of the email with no `@`, ending at the first `@` if there is one |
| Identity.BaseName | src/stores/auth.js:220 | the base name is alphanumeric |
| Identity.StripMembership | src/stores/auth.js:220 | the regex replace keeps a character exactly when it is alphanumeric and occurs in the input |
| Identity.StripDistributes | src/stores/auth.js:220 | the stripping works character by character: it distributes over concatenation |
| Identity.StripIdempotent | src/stores/auth.js:220 | stripping leaves an alphanumeric string unchanged, so stripping twice equals stripping once |
| Identity.BaseNameOfPlainAddress | src/stores/auth.js:220 | for an alphanumeric local part, the base name is that local part |
| Identity.Probe | src/stores/auth.js:221-235 | the loop makes at most ten probes; a verified result is unclaimed; a result is the start or one of the drawn candidates; running out means every probed candidate was claimed and the tenth drawn candidate is returned |
| Identity.ProbeFreeIsLastProbed | src/stores/auth.js:221-235 | a verified result is the candidate probed last |
| Identity.ProbeClaimedBeforeFree | src/stores/auth.js:221-235 | every candidate probed before a verified result was claimed |
| Identity.AllocateSpec | src/stores/auth.js:220-235 | an unclaimed base name is returned verbatim; any other result is the base plus a four-digit suffix and so is alphanumeric; the loop gives up exactly when the base and the first nine candidates are all claimed, and then returns the tenth candidate unchecked |
| Identity.AllocateFirstFree | src/stores/auth.js:221-235 | a verified id is the first unclaimed candidate in probe order: the base name, then the base name with each suffix in turn; every candidate probed before it was claimed |
| Identity.AllocationMayReturnClaimedId | src/stores/auth.js:221-235 | when the base and all ten suffixed candidates are claimed, the returned id is claimed and ten probes were made |
| DomainInference.InferDomains | src/stores/auth.js:148-184 | the inferred list is never empty |
| DomainInference.InferDomainsWellFormed | src/stores/auth.js:148-184 | the inferred list has no duplicates and draws only on the fixed vocabulary |
| DomainInference.InferDomainsDefault | src/stores/auth.js:152-182 | with no industry and no triggering skill the result is the default `[Technology, Business, General]`; with an industry the default never applies: the result is the industry's tags followed by the skill tags, and differs from the default list |
| DomainInference.InferDomainsSkillsOnly | src/stores/auth.js:152-182 | an empty industry adds nothing: once some skill triggers a tag, the result holds exactly the tags the skills trigger |
| DomainInference.InferDomainsIndustryFirst | src/stores/auth.js:152-163 | the industry's tags come first, chosen by the first case-sensitive rule that matches: `Technology` or `IT` gives `Technology, Software, IT Services`; then `Finance` gives `Finance, Banking, Investment`; then `Healthcare` gives `Healthcare, Medical, Pharmaceutical`; an industry matching none starts with `General, Business, Consulting`; only skill tags follow |
| DomainInference.InferDomainsSkillTags | src/stores/auth.js:166-177 | `Data Science` and `Design` are present exactly when some skill triggers them; a skill that triggers `Technology` puts it in the list |
| DomainInference.InferDomainsOrder | src/stores/auth.js:166-177 | skill tags are ordered by the first skill that triggers them |
| DomainInference.InferDomainsNoIndustry | src/stores/auth.js:180-182 | no industry and no skills give the default list |
| DomainInference.InferDomainsLowerCaseTechnology | src/stores/auth.js:152-163 | a lower-case `technology` industry falls through to the catch-all branch, because the industry tests are case-sensitive |
| DomainInference.InferDomainsFinanceAndIT | src/stores/auth.js:152-163 | `Finance & IT` takes the technology branch, whose test comes before the finance one |
| Sync.ExtractDomainSpec | src/stores/auth.js:37-44 | an unparsable URL is returned unchanged; a host without `www.` is returned as is; otherwise the first `www.` in the host, wherever it is, is removed and the rest kept |
| Sync.BuildPayloadSpec | src/stores/auth.js:54-83 | the payload carries the display id; the preferred industry, or `Technology` when it is empty; one domain per career-page URL in order; the raw URLs as links; and the profile as details |
| Sync.SeedSpec | src/stores/auth.js:47-135 | nothing is sent without a profile; an empty display id is an error before any call; the payload posted, whether the post succeeds or fails, is the one built from the profile sent (the override, else the cached profile); `update-urls` is posted only after a successful push and only with a non-empty URL list; its outcome never changes the result |
| Sync.GoogleCareersExample | src/stores/auth.js:37-44 | a Google careers URL gives the domain `google.com` and keeps the URL as the link |
| Repository.ConsistentIsUnique | src/stores/auth.js:258-261 | an index that names every profile's owner rules out two profiles with the same display id |
| Repository.CheckAndCreate | src/stores/auth.js:197-269 | only the signed-in user's profile can change; it exists afterwards; a profile with a display id is left as it is; a seed push happens exactly for a new user |
| Repository.NewUserSpec | src/stores/auth.js:220-268 | a new user gets the skeleton profile with the allocated id, and the index entry for that id, written together; the skeleton is what is pushed; a verified id was unclaimed and is the only new key |
| Repository.RepairSpec | src/stores/auth.js:210-215 | a profile with no display id gets the base name, the index entry for the base name is set to this user whoever held it before, and nothing is pushed |
| Repository.CheckAndCreateIdempotent | src/stores/auth.js:203-215 | a second call for the same user changes nothing, whatever suffixes either call draws |
| Repository.NewUserPreservesConsistency | src/stores/auth.js:220-261 | creating a user whose allocation found a free id keeps the index consistent with the profiles |
| Repository.RepairPreservesConsistency | src/stores/auth.js:210-215 | a repair whose base name is unclaimed, or already this user's, keeps the index consistent |
| Repository.RepairCanDuplicateDisplayId | src/stores/auth.js:210-215 | a repair onto a base name another profile already carries leaves two profiles with the same id |
| Repository.ExhaustedAllocationCanDuplicateDisplayId | src/stores/auth.js:221-261 | when the base and all ten candidates are taken, the new profile shares its id with an existing one |
| Repository.LoadProfile | src/stores/auth.js:138-195 | a stored profile is returned with a non-empty domain list; a non-empty stored list is kept; a missing or empty one is replaced by the list inferred from the stored profile; only the domain list can differ from what is stored |
| Repository.ExternalFetch | src/stores/auth.js:272-330 | an array `message.domains` in the reply replaces the cached domain list and nothing else, and with no cached profile it creates an empty profile holding just that list; otherwise the cache is kept; on failure a missing list is inferred, a present or empty one is kept, and the call throws |
| Repository.CallSitesAgree | src/stores/auth.js:148-184 | the profile load and the failed external fetch infer the same list for a profile with no domain list |
| Gateway.UpdateUser | server.js:205-236 | the request is rejected with 400 exactly when `user_id` is not a non-empty string; otherwise the coerced payload is forwarded, carrying that id; an upstream failure gives 500 `Failed to update user`; success relays the upstream body with 200 |
| Gateway.CoerceUpdateSpec | server.js:215-221 | a falsy industry becomes `Technology` and any truthy one is sent as `String(industry)`, so a non-empty string is kept; `domains` and `links` are the given arrays or `[]`; `details` is kept when `typeof` says object (including `null` and arrays), and is `{}` otherwise |
| Gateway.CoerceUpdateIdempotent | server.js:215-221 | re-posting a forwarded payload that has a non-empty industry forwards it unchanged |
| Gateway.EmptyArrayIndustryForwardsEmpty | server.js:217 | an `industry` of `[]` is truthy and `String([])` is empty, so an empty industry is forwarded |
| Gateway.GetUser | server.js:311-419 | an empty display id gets 400; otherwise the detail call is made and the answer is 200; on success the body is the normalised upstream reply, or the fallback skeleton when the normalisation throws; an upstream failure gives the fallback skeleton |
| Gateway.GetUserReplies | server.js:350-418 | a reply whose `message` is falsy or an array is relayed unchanged; one whose `message` is a truthy primitive is answered with the fallback skeleton for the requested id |
| Gateway.NormaliseUserDetailSpec | server.js:350-369 | a falsy or array `message` passes through; a truthy primitive `message` makes the property assignment throw, and the fallback is sent |
| Gateway.NormaliseObjectMessage | server.js:350-369 | an object message ends with truthy `domains`. This is the wrapped `domain` when that is truthy, otherwise the existing truthy `domains`, otherwise `[]`. No other property of the message or of the body changes |
| Gateway.NormaliseKeepsNonArrayDomains | server.js:350-369 | a string `domains` is passed through as it is |
| Gateway.UserFallbackSpec | server.js:400-418 | the fallback names the requested id, invents an `example.com` address, has no domains, and is marked `fallback` |
| Gateway.FilterJobsSpec | server.js:641-655 | the filter keeps exactly the jobs it accepts; it never grows the list; it keeps the whole list when every job is accepted |
| Gateway.FilterJobsAppend | server.js:641-655 | filtering distributes over concatenation, so the kept jobs stay in their original order |
| Gateway.MatchFallbackByDomain | server.js:574-655 | the canned match results: all three jobs when the filter does not apply; jobs 1 and 2 for a domain mentioning technology or software; job 3 for one mentioning data; all three otherwise |
| Gateway.TechnologyFallbackKeepsTwo | server.js:641-655 | the domain `technology` keeps the engineer and the developer |
| Gateway.MatchResults | server.js:510-670 | the request is rejected with 400 exactly when `user_id` is falsy. Otherwise `String(user_id)` is forwarded with offset 0 and limit 10 by default and the trimmed non-blank domain, and the answer is 200. Success wraps the upstream `message`; failure sends the filtered canned jobs |
| Gateway.RecommendedResults | server.js:673-721 | the same as the match results, with limit 5 by default and the single unfiltered canned recommendation on failure |
| Gateway.UpstreamDomainSpec | server.js:528-540 | a domain is forwarded exactly when it has a non-white-space character, and then it is trimmed |
| Gateway.ResultsBodySpec | server.js:558-568 | the success body's `message` is the upstream message when truthy and `[]` otherwise |
| Gateway.RecommendedFallbackIgnoresDomain | server.js:702-720 | the recommended fallback does not depend on the domain, and holds only job 3 |
| Gateway.MatchStatistics | server.js:773-824 | the request is rejected with 400 exactly when `user_id` is falsy; otherwise `String(user_id)` is forwarded; success relays the body; failure sends the canned counters, all with 200 |
| Gateway.ReadEndpointsHideOutages | server.js:311-824 | every read endpoint answers 200 once it has accepted a request, so an upstream outage never shows in the status |
| Router.GuardSpec | src/router/index.js:61-82 | the guard sends to `/login` exactly when the route is protected and no user is known to be signed in; it sends to `/` exactly when a signed-in user asks for `/login` exactly; otherwise it proceeds |
| Router.ProtectedRouteNames | src/router/index.js:17-58 | the table protects exactly the profile, match, resume, jobs and job-detail routes |
| Router.RoutesCompiled | src/router/index.js:17-58 | every record's stored pattern is its path split into segments |
| Router.ProtectedPaths | src/router/index.js:17-70 | a path is protected exactly when it is one segment naming profile, match, resume or jobs in any letter case, or `job` followed by one non-empty segment |
| Router.LoginShapedUnprotected | src/router/index.js:17-70 | the root and any path whose only segment is `login` in any letter case are not protected |
| Router.EntryPointsUnprotected | src/router/index.js:18-27 | `/` and `/login` are not protected |
| Router.NoRedirectLoop | src/router/index.js:61-82 | wherever the guard redirects, the guard then lets the user through |
| Router.RedirectsMatchSession | src/router/index.js:61-82 | a signed-in user is never sent to `/login`; a user who is not signed in is never sent to `/` |
| Router.ResolveFailureIsSignedOut | src/router/index.js:74-81 | failing to resolve the user counts as signed out on protected routes, and never redirects an unprotected one |
| Router.MatcherAndGuardDisagreeOnCase | src/router/index.js:61-82 | `/PROFILE/` signed out goes to `/login`; `/Login` signed in proceeds; `/login` signed in goes to `/` |
| Router.JobDetailProtected | src/router/index.js:52-57 | a job-detail path with any non-empty parameter is protected |
| EndToEnd.PushedPayloadForwardedUnchanged | server.js:205-231 | every payload the client pushes passes the gateway's validation and is forwarded unchanged |
| EndToEnd.OutageClearsCachedDomains | src/stores/auth.js:272-284 | the get-user fallback carries `domains: []`, which the client stores as the profile's domain list |
| EndToEnd.OutagePathsDisagree | src/stores/auth.js:272-330 | the client's own failure path keeps a non-empty cached list, while the gateway's fallback path replaces it |

## Left out

- Sign-in, sign-out, registration and session initialisation are not modelled. They wire the identity provider and only set state.
- The document store and network transport are not modelled: atomicity, timeouts, retries and logging. Each remote call is a `Reply` input; a multi-path update is modelled as one atomic map update.
- Concurrency is not modelled: two clients allocating at once, or interleaved store writes. Every operation is a single step.
- The gateway's health, debug and external-test endpoints are not modelled. They only relay upstream data.
- The dead fix-ups of the sync payload (src/stores/auth.js:86-104) are not modelled. They test conditions the construction just above already rules out.
- The outer error mapping of get-user (server.js:420-446) is not modelled. Every failure inside is caught first, so it is unreachable.
- `Text.Lower`: only ASCII letters are lowered, not the full Unicode case mapping of `toLowerCase`.
- `JsValue.ToJsString`: integers are rendered in plain decimal, which matches `String(n)` only for magnitudes below 10^21. Objects with their own `toString` are not modelled. Fractions are kept as their literal, as in `78.5`.
- `Gateway.PagePayloadOf`: `offset` and `limit` are integers or missing, and `domain` is a string or missing. For other values `parseInt` or `trim` would behave differently: a non-string domain throws a TypeError, which the handler would turn into a 500. Those cases are not modelled.
- `ProfileData.Profile`: a missing `skills`, `experience`, `education` or `projects` is read as `[]`, and a missing `displayId` as `""`. The code treats them the same through `|| []` and truthiness. Only `domain` keeps missing and empty apart.
- `Gateway.GetUser`: an empty display id stands for the route not matching at all. Express would not reach the handler then; the model gives the handler's own 400.
- `Router.Matches`: percent-decoding of paths, query strings, hash fragments and the router's other matching options are not modelled. Matching is case-insensitive per segment and ignores one trailing slash.
- `Sync.ExtractDomain`: the WHATWG URL parser is the parameter `hostOf`.
- `Identity.AllocateDisplayId`: `Math.random()` is the suffix sequence, which has one four-digit value per attempt.
- `Identity.AllocateDisplayId`, `Repository.CheckAndCreate`: an email whose local part has no ASCII letter or digit gives the base name `""`. The store paths `usernames/` + id (src/stores/auth.js:213, 225, 259) then name the whole username index, so the probe and the write would act on that node. The model treats `""` as an ordinary key.

=== FILE: common.dfy ===
/** Small shared datatypes: an optional value and the outcome of a remote call. */
module Common {

  /** A value that may be absent (JavaScript `undefined`/`null` where only presence matters). */
  datatype Option<+T> = None | Some(value: T) {
    /** The value, or `default` when absent. */
    function GetOr(default: T): T {
      match this
      case Some(v) => v
      case None => default
    }
  }

  /** Outcome of a fire-and-await remote call whose response body is not used. */
  datatype CallResult = Succeeded | Failed
}

=== FILE: domain_inference.dfy ===
/** The fallback domain-tag rule applied to a profile whose authoritative domain list is
    missing: tags from the preferred industry, then tags triggered by skills, then a fixed
    default when nothing matched. The rule is written once in the client and copied at
    both of its call sites; here it is defined once and both call sites use `InferDomains`. */
module DomainInference {
  import opened Text

  const Technology := "Technology"
  const Software := "Software"
  const ITServices := "IT Services"
  const Finance := "Finance"
  const Banking := "Banking"
  const Investment := "Investment"
  const Healthcare := "Healthcare"
  const Medical := "Medical"
  const Pharmaceutical := "Pharmaceutical"
  const General := "General"
  const Business := "Business"
  const Consulting := "Consulting"
  const DataScience := "Data Science"
  const Design := "Design"

  /** Every tag the rule can produce. */
  const Vocabulary: set<string> := {Technology, Software, ITServices, Finance, Banking, Investment,
    Healthcare, Medical, Pharmaceutical, General, Business, Consulting, DataScience, Design}

  /** Tags when nothing at all matched. */
  const DefaultTags: seq<string> := [Technology, Business, General]

  predicate NoDuplicates(s: seq<string>) {
    forall i, j :: 0 <= i < j < |s| ==> s[i] != s[j]
  }

  /** `a` occurs at an earlier position of `s` than `b`. */
  predicate Before(s: seq<string>, a: string, b: string) {
    exists x, y :: 0 <= x < y < |s| && s[x] == a && s[y] == b
  }

  /** The industry rule: the first branch whose case-sensitive substring test succeeds wins;
      an empty industry contributes nothing. */
  function IndustryTags(industry: string): seq<string> {
    if industry == "" then []
    else if Contains(industry, "Technology") || Contains(industry, "IT") then [Technology, Software, ITServices]
    else if Contains(industry, "Finance") then [Finance, Banking, Investment]
    else if Contains(industry, "Healthcare") then [Healthcare, Medical, Pharmaceutical]
    else [General, Business, Consulting]
  }

  /** The tags one skill triggers, in the order of the three tests: the lower-cased skill
      containing `javascript`, `vue` or `react` gives `Technology`; `python` or `data` gives
      `Data Science`; `design` or `ui` gives `Design`. */
  function SkillTagList(skill: string): seq<string> {
    var l := Lower(skill);
    (if Contains(l, "javascript") || Contains(l, "vue") || Contains(l, "react") then [Technology] else [])
    + (if Contains(l, "python") || Contains(l, "data") then [DataScience] else [])
    + (if Contains(l, "design") || Contains(l, "ui") then [Design] else [])
  }

  /** Whether one skill triggers `tag` under the skill rule. */
  predicate Triggers(skill: string, tag: string) {
    tag in SkillTagList(skill)
  }

  /** Append `tag` unless it is already present. */
  function AddOnce(acc: seq<string>, tag: string): seq<string> {
    if tag in acc then acc else acc + [tag]
  }

  /** Append each of `tags` in turn, skipping those already present. */
  function AddEach(acc: seq<string>, tags: seq<string>): seq<string>
    decreases |tags|
  {
    if tags == [] then acc else AddEach(AddOnce(acc, tags[0]), tags[1..])
  }

  /** The per-skill tag lists of a skill list. */
  function TagLists(skills: seq<string>): (lists: seq<seq<string>>)
    ensures |lists| == |skills|
    ensures forall i :: 0 <= i < |skills| ==> lists[i] == SkillTagList(skills[i])
  {
    seq(|skills|, i requires 0 <= i < |skills| => SkillTagList(skills[i]))
  }

  /** The skill loop over already-computed per-skill tag lists. */
  function AddLists(acc: seq<string>, lists: seq<seq<string>>): seq<string>
    decreases |lists|
  {
    if lists == [] then acc else AddEach(AddLists(acc, lists[..|lists| - 1]), lists[|lists| - 1])
  }

  /** The skill loop over `skills`, in order, starting from the tags in `acc`. */
  function AddSkillTags(acc: seq<string>, skills: seq<string>): seq<string>
  {
    AddLists(acc, TagLists(skills))
  }

  /** The whole rule. The result is never empty. */
  function InferDomains(industry: string, skills: seq<string>): (r: seq<string>)
    ensures |r| > 0
  {
    var tags := AddSkillTags(IndustryTags(industry), skills);
    if tags == [] then DefaultTags else tags
  }

  // ---------------------------------------------------------------- one skill

  lemma {:induction false} AddEachSpec(acc: seq<string>, tags: seq<string>)
    ensures acc <= AddEach(acc, tags)
    ensures forall t :: t in AddEach(acc, tags) <==> t in acc || t in tags
    ensures forall k :: |acc| <= k < |AddEach(acc, tags)| ==> AddEach(acc, tags)[k] in tags
    ensures NoDuplicates(acc) ==> NoDuplicates(AddEach(acc, tags))
    decreases |tags|
  {
    if tags != [] {
      var next := AddOnce(acc, tags[0]);
      AddEachSpec(next, tags[1..]);
      forall t | t in tags[1..] ensures t in tags { }
      forall t | t in tags ensures t == tags[0] || t in tags[1..] {
        var j :| 0 <= j < |tags| && tags[j] == t;
        if j > 0 { assert tags[1..][j - 1] == t; }
      }
      var r := AddEach(acc, tags);
      forall k | |acc| <= k < |r| ensures r[k] in tags {
        if k < |next| { assert next[k] == tags[0]; }
      }
    }
  }

  // ---------------------------------------------------------------- the skill loop

  /** The skill loop only appends: the tags it started from stay, in place, at the front. */
  lemma {:induction false} ListsExtend(acc: seq<string>, lists: seq<seq<string>>)
    ensures acc <= AddLists(acc, lists)
    decreases |lists|
  {
    if lists != [] {
      ListsExtend(acc, lists[..|lists| - 1]);
      AddEachSpec(AddLists(acc, lists[..|lists| - 1]), lists[|lists| - 1]);
    }
  }

  /** A tag is in the loop's result exactly when it was there before or some list holds it. */
  lemma {:induction false} ListsMembership(acc: seq<string>, lists: seq<seq<string>>, t: string)
    ensures t in AddLists(acc, lists) <==> t in acc || exists i :: 0 <= i < |lists| && t in lists[i]
    decreases |lists|
  {
    if lists != [] {
      var n := |lists|;
      var front := lists[..n - 1];
      ListsMembership(acc, front, t);
      AddEachSpec(AddLists(acc, front), lists[n - 1]);
      if exists i :: 0 <= i < n && t in lists[i] {
        var i :| 0 <= i < n && t in lists[i];
        if i < n - 1 { assert front[i] == lists[i]; }
      }
      if exists i :: 0 <= i < n - 1 && t in front[i] {
        var i :| 0 <= i < n - 1 && t in front[i];
        assert lists[i] == front[i];
      }
    }
  }

  /** Each tag is appended at most once. */
  lemma {:induction false} ListsNoDuplicates(acc: seq<string>, lists: seq<seq<string>>)
    requires NoDuplicates(acc)
    ensures NoDuplicates(AddLists(acc, lists))
    decreases |lists|
  {
    if lists != [] {
      ListsNoDuplicates(acc, lists[..|lists| - 1]);
      AddEachSpec(AddLists(acc, lists[..|lists| - 1]), lists[|lists| - 1]);
    }
  }

  /** Appended tags are ordered by the first list that holds them: if list `i` holds `a` and
      no list up to and including `i` holds `b`, then `a` comes before `b`. */
  lemma {:induction false} ListsFirstOccurrenceOrder(acc: seq<string>, lists: seq<seq<string>>, a: string, b: string, i: nat)
    requires i < |lists| && a in lists[i]
    requires forall k :: 0 <= k <= i ==> b !in lists[k]
    requires a !in acc && b !in acc && b in AddLists(acc, lists)
    ensures Before(AddLists(acc, lists), a, b)
    decreases |lists|
  {
    var n := |lists|;
    var front := lists[..n - 1];
    var prev := AddLists(acc, front);
    var r := AddLists(acc, lists);
    AddEachSpec(prev, lists[n - 1]);
    ListsMembership(acc, lists, b);
    assert i < n - 1;
    assert front[i] == lists[i];
    ListsMembership(acc, front, a);
    if b in prev {
      assert forall k :: 0 <= k <= i ==> b !in front[k];
      ListsFirstOccurrenceOrder(acc, front, a, b, i);
      var x, y :| 0 <= x < y < |prev| && prev[x] == a && prev[y] == b;
      assert r[x] == a && r[y] == b;
    } else {
      var x :| 0 <= x < |prev| && prev[x] == a;
      var y :| 0 <= y < |r| && r[y] == b;
      assert r[x] == a;
      assert y >= |prev|;
    }
  }

  /** Empty tag lists leave the loop's input unchanged. */
  lemma {:induction false} ListsNoTags(acc: seq<string>, lists: seq<seq<string>>)
    requires forall i :: 0 <= i < |lists| ==> lists[i] == []
    ensures AddLists(acc, lists) == acc
    decreases |lists|
  {
    if lists != [] {
      ListsNoTags(acc, lists[..|lists| - 1]);
    }
  }

  /** A tag is added by the skill loop exactly when some skill triggers it. */
  lemma SkillTagsMembership(acc: seq<string>, skills: seq<string>, t: string)
    ensures t in AddSkillTags(acc, skills) <==> t in acc || exists i :: 0 <= i < |skills| && Triggers(skills[i], t)
  {
    var lists := TagLists(skills);
    ListsMembership(acc, lists, t);
    if exists i :: 0 <= i < |lists| && t in lists[i] {
      var i :| 0 <= i < |lists| && t in lists[i];
      assert Triggers(skills[i], t);
    }
  }

  // ---------------------------------------------------------------- the whole rule

  /** The inferred list has no duplicates and draws every tag from the fixed vocabulary. */
  lemma InferDomainsWellFormed(industry: string, skills: seq<string>)
    ensures NoDuplicates(InferDomains(industry, skills))
    ensures forall t :: t in InferDomains(industry, skills) ==> t in Vocabulary
  {
    ListsNoDuplicates(IndustryTags(industry), TagLists(skills));
    forall t | t in InferDomains(industry, skills)
      ensures t in Vocabulary
    {
      InferredTagInVocabulary(industry, skills, t);
    }
  }

  lemma InferredTagInVocabulary(industry: string, skills: seq<string>, t: string)
    requires t in InferDomains(industry, skills)
    ensures t in Vocabulary
  {
    var base := IndustryTags(industry);
    SkillTagsMembership(base, skills, t);
    if t in base {
      IndustryTagsInVocabulary(industry, t);
    } else if exists i :: 0 <= i < |skills| && Triggers(skills[i], t) {
      var i :| 0 <= i < |skills| && Triggers(skills[i], t);
      SkillTagsInVocabulary(skills[i], t);
    }
  }

  lemma IndustryTagsInVocabulary(industry: string, t: string)
    requires t in IndustryTags(industry)
    ensures t in Vocabulary
  {
  }

  lemma SkillTagsInVocabulary(skill: string, t: string)
    requires Triggers(skill, t)
    ensures t in Vocabulary
  {
  }

  /** With an empty industry and no triggering skill the result is exactly the default
      `[Technology, Business, General]`; with a non-empty industry the default never applies:
      the result is the industry's tags extended by the skill tags, and is not the default. */
  lemma InferDomainsDefault(industry: string, skills: seq<string>)
    ensures industry == "" && (forall i, t :: 0 <= i < |skills| ==> !Triggers(skills[i], t))
      ==> InferDomains(industry, skills) == DefaultTags
    ensures industry != "" ==> InferDomains(industry, skills) == AddSkillTags(IndustryTags(industry), skills)
    ensures industry != "" ==> InferDomains(industry, skills) != DefaultTags
  {
    if industry != "" {
      IndustryTagsFirst(industry, skills);
      IndustryTagsNotDefault(industry);
      assert InferDomains(industry, skills)[..2] == IndustryTags(industry)[..2];
    }
    if industry == "" && (forall i, t :: 0 <= i < |skills| ==> !Triggers(skills[i], t)) {
      var lists := TagLists(skills);
      forall i | 0 <= i < |lists| ensures lists[i] == [] {
        if lists[i] != [] { assert Triggers(skills[i], lists[i][0]); }
      }
      ListsNoTags([], lists);
    }
    ListsExtend(IndustryTags(industry), TagLists(skills));
  }

  /** No industry branch starts the way the default list does. */
  lemma IndustryTagsNotDefault(industry: string)
    requires industry != ""
    ensures |IndustryTags(industry)| == 3 && IndustryTags(industry)[..2] != DefaultTags[..2]
  {
    var t := IndustryTags(industry);
    if t[0] == Technology {
      assert t[1] == Software && Software[0] != Business[0];
    } else {
      assert t[0][0] != Technology[0];
    }
  }

  /** An empty industry adds nothing: once some skill triggers a tag, the result holds exactly
      the tags the skills trigger, and none of the default list's own. */
  lemma InferDomainsSkillsOnly(industry: string, skills: seq<string>)
    requires industry == ""
    ensures (exists i, t :: 0 <= i < |skills| && Triggers(skills[i], t)) ==>
      forall t :: t in InferDomains(industry, skills) <==> exists i :: 0 <= i < |skills| && Triggers(skills[i], t)
  {
    if exists i, t :: 0 <= i < |skills| && Triggers(skills[i], t) {
      var i0, t0 :| 0 <= i0 < |skills| && Triggers(skills[i0], t0);
      SkillTagsMembership([], skills, t0);
      forall t ensures t in InferDomains(industry, skills) <==> exists i :: 0 <= i < |skills| && Triggers(skills[i], t) {
        SkillTagsMembership([], skills, t);
      }
    }
  }

  /** The industry rule picks only its first matching branch and is case-sensitive; its tags
      come first and are followed only by skill-triggered tags. */
  lemma InferDomainsIndustryFirst(industry: string, skills: seq<string>)
    ensures IndustryTags(industry) <= InferDomains(industry, skills)
    ensures Contains(industry, "Technology") || Contains(industry, "IT") ==>
      InferDomains(industry, skills)[..3] == [Technology, Software, ITServices]
    ensures !Contains(industry, "Technology") && !Contains(industry, "IT") && Contains(industry, "Finance") ==>
      InferDomains(industry, skills)[..3] == [Finance, Banking, Investment]
    ensures (!Contains(industry, "Technology") && !Contains(industry, "IT") && !Contains(industry, "Finance")
             && Contains(industry, "Healthcare"))
      ==> InferDomains(industry, skills)[..3] == [Healthcare, Medical, Pharmaceutical]
    ensures industry != "" && !Contains(industry, "Technology") && !Contains(industry, "IT")
      && !Contains(industry, "Finance") && !Contains(industry, "Healthcare")
      ==> InferDomains(industry, skills)[..3] == [General, Business, Consulting]
    ensures forall k :: |IndustryTags(industry)| <= k < |InferDomains(industry, skills)| && industry != "" ==>
      InferDomains(industry, skills)[k] in {Technology, DataScience, Design}
  {
    IndustryTagsFirst(industry, skills);
    if industry != "" {
      SkillTagsAfterIndustry(industry, skills);
    }
  }

  lemma IndustryTagsFirst(industry: string, skills: seq<string>)
    ensures IndustryTags(industry) <= InferDomains(industry, skills)
  {
    ListsExtend(IndustryTags(industry), TagLists(skills));
  }

  /** After a non-empty industry's tags come only tags the skill rule produces. */
  lemma SkillTagsAfterIndustry(industry: string, skills: seq<string>)
    requires industry != ""
    ensures forall k :: |IndustryTags(industry)| <= k < |InferDomains(industry, skills)| ==>
      InferDomains(industry, skills)[k] in {Technology, DataScience, Design}
  {
    var base := IndustryTags(industry);
    assert NoDuplicates(base) && base != [];
    ListsExtend(base, TagLists(skills));
    forall k | |base| <= k < |AddSkillTags(base, skills)|
      ensures AddSkillTags(base, skills)[k] in {Technology, DataScience, Design}
    {
      AppendedAreSkillTags(base, skills, k);
    }
  }

  /** Whatever the skill loop appends to a duplicate-free start is a skill tag. */
  lemma AppendedAreSkillTags(base: seq<string>, skills: seq<string>, k: nat)
    requires NoDuplicates(base) && |base| <= k < |AddSkillTags(base, skills)|
    ensures AddSkillTags(base, skills)[k] in {Technology, DataScience, Design}
  {
    var r := AddSkillTags(base, skills);
    ListsExtend(base, TagLists(skills));
    ListsNoDuplicates(base, TagLists(skills));
    SkillTagsMembership(base, skills, r[k]);
    var i :| 0 <= i < |skills| && Triggers(skills[i], r[k]);
    SkillTagKinds(skills[i], r[k]);
  }

  /** The skill rule produces only the three skill tags. */
  lemma SkillTagKinds(skill: string, t: string)
    requires Triggers(skill, t)
    ensures t == Technology || t == DataScience || t == Design
  {
  }

  /** A skill tag is present exactly when some skill triggers it or the industry supplied it
      (for `Technology`, also when the default list applies). */
  lemma InferDomainsSkillTags(industry: string, skills: seq<string>)
    ensures DataScience in InferDomains(industry, skills) <==> exists i :: 0 <= i < |skills| && Triggers(skills[i], DataScience)
    ensures Design in InferDomains(industry, skills) <==> exists i :: 0 <= i < |skills| && Triggers(skills[i], Design)
    ensures (exists i :: 0 <= i < |skills| && Triggers(skills[i], Technology)) ==> Technology in InferDomains(industry, skills)
  {
    SkillOnlyTagPresence(industry, skills, DataScience);
    SkillOnlyTagPresence(industry, skills, Design);
    SkillTagsMembership(IndustryTags(industry), skills, Technology);
  }

  /** A tag that neither the industry rule nor the default list produces is present exactly
      when a skill triggers it. */
  lemma SkillOnlyTagPresence(industry: string, skills: seq<string>, t: string)
    requires t == DataScience || t == Design
    ensures t in InferDomains(industry, skills) <==> exists i :: 0 <= i < |skills| && Triggers(skills[i], t)
  {
    IndustryTagsLackSkillOnlyTags(industry, t);
    assert t !in DefaultTags;
    SkillTagsMembership(IndustryTags(industry), skills, t);
  }

  lemma IndustryTagsLackSkillOnlyTags(industry: string, t: string)
    requires t == DataScience || t == Design
    ensures t !in IndustryTags(industry)
  {
  }

  /** Skill-derived tags are ordered by the skill that first triggers them. */
  lemma InferDomainsOrder(industry: string, skills: seq<string>, a: string, b: string, i: nat)
    requires i < |skills| && Triggers(skills[i], a)
    requires forall k :: 0 <= k <= i ==> !Triggers(skills[k], b)
    requires a !in IndustryTags(industry) && b !in IndustryTags(industry) && b in InferDomains(industry, skills)
    ensures Before(InferDomains(industry, skills), a, b)
  {
    var base := IndustryTags(industry);
    var lists := TagLists(skills);
    SkillTagsMembership(base, skills, a);
    assert AddSkillTags(base, skills) != [];
    assert a in lists[i];
    assert forall k :: 0 <= k <= i ==> b !in lists[k];
    ListsFirstOccurrenceOrder(base, lists, a, b, i);
  }

  /** With no industry and no skills the result is the default list. */
  lemma InferDomainsNoIndustry()
    ensures InferDomains("", []) == [Technology, Business, General]
  {
    ListsNoTags([], TagLists([]));
  }

  /** `technology` in lower case triggers none of the case-sensitive industry rules. */
  lemma InferDomainsLowerCaseTechnology()
    ensures InferDomains("technology", []) == [General, Business, Consulting]
  {
    LowerCaseTechnologyIndustry("technology");
    ListsNoTags(IndustryTags("technology"), TagLists([]));
  }

  lemma LowerCaseTechnologyIndustry(industry: string)
    requires industry == "technology"
    ensures IndustryTags(industry) == [General, Business, Consulting]
  {
    LacksUpperCaseRules(industry);
    NotContainsMissingChar(industry, "Finance", 0);
    NotContainsMissingChar(industry, "Healthcare", 0);
  }

  lemma LacksUpperCaseRules(industry: string)
    requires industry == "technology"
    ensures !Contains(industry, "Technology") && !Contains(industry, "IT")
  {
    NotContainsMissingChar(industry, "Technology", 0);
    NotContainsMissingChar(industry, "IT", 0);
  }

  /** `Finance & IT` takes the `IT` rule, whose test comes before the `Finance` one. */
  lemma InferDomainsFinanceAndIT()
    ensures InferDomains("Finance & IT", []) == [Technology, Software, ITServices]
  {
    ContainsAt("Finance & IT", "IT", 10);
    ListsNoTags(IndustryTags("Finance & IT"), TagLists([]));
  }
}

=== FILE: end_to_end.dfy ===
/** How the client's calls meet the gateway's handlers: the sync payload of
    `seedUserProfile` posted to `/api/update-user`, and the user-detail reply of
    `/api/get-user/:displayId` consumed by `fetchUserFromExternalAPI`. */
module EndToEnd {
  import opened Common
  import opened JsValue
  import opened ProfileData
  import opened Sync
  import opened Repository
  import opened Gateway

  /** The request body the client posts: its payload serialised as JSON. */
  function SyncBody(s: SyncPayload): map<string, Json> {
    map["user_id" := JStr(s.userId), "industry" := JStr(s.industry), "domains" := JArr(Strings(s.domains)),
        "details" := ProfileJson(s.details), "links" := JArr(Strings(s.links))]
  }

  /** Every payload the client pushes passes the gateway's validation and is forwarded
      unchanged: the gateway's coercions are the identity on it. */
  lemma PushedPayloadForwardedUnchanged(profileOverride: Option<Profile>, cached: Option<Profile>,
                                        hostOf: string -> Option<string>, linkUpdate: CallResult, upstream: Reply)
    requires Seed(profileOverride, cached, hostOf, Succeeded, linkUpdate).Pushed?
    ensures var s := Seed(profileOverride, cached, hostOf, Succeeded, linkUpdate).payload;
      UpdateUser(SyncBody(s), upstream).call
        == Some(UpdateUserCall(UpdatePayload(s.userId, s.industry, Strings(s.domains), ProfileJson(s.details), Strings(s.links))))
  {
    var s := Seed(profileOverride, cached, hostOf, Succeeded, linkUpdate).payload;
    SeedSpec(profileOverride, cached, hostOf, Succeeded, linkUpdate);
    var p := if profileOverride.Some? then profileOverride.value else cached.value;
    BuildPayloadSpec(p, hostOf);
    assert s == BuildPayload(p, hostOf);
    var body := SyncBody(s);
    assert Field(body, "user_id") == JStr(s.userId);
    CoerceUpdateSpec(body);
  }

  /** A gateway outage on the user-detail read is not seen as one by the client: the fallback
      skeleton carries `domains: []`, which the client stores as the profile's domain list,
      replacing whatever list it held, inferred or synced. */
  lemma OutageClearsCachedDomains(p: Profile, displayId: string)
    requires displayId != ""
    ensures var reply := GetUser(displayId, Err).response.body;
      ExternalFetch(Some(p), Ok(reply)).cached == Some(p.(domain := Some([])))
  {
    UserFallbackSpec(displayId);
  }

  /** Whereas the client's own failure path keeps a cached domain list and infers a missing one:
      the two paths disagree whenever the cached list is non-empty. */
  lemma OutagePathsDisagree(p: Profile, displayId: string)
    requires displayId != "" && p.domain.Some? && p.domain.value != []
    ensures ExternalFetch(Some(p), Err).cached == Some(p)
    ensures ExternalFetch(Some(p), Ok(GetUser(displayId, Err).response.body)).cached != Some(p)
  {
    OutageClearsCachedDomains(p, displayId);
  }
}

=== FILE: gateway.dfy ===
/** The HTTP gateway's handlers (server.js) as pure functions from a request and the
    outcome of the upstream matching-service call to the call made and the response sent. */
module Gateway {
  import opened Common
  import opened Text
  import opened JsValue

  datatype Response = Response(status: nat, body: Json)

  /** The payload forwarded to the matching service's `/update-user/`. */
  datatype UpdatePayload = UpdatePayload(userId: string, industry: string, domains: seq<Json>, details: Json, links: seq<Json>)

  /** The payload forwarded for match and recommended results; `domain` is attached only
      when present. */
  datatype PagePayload = PagePayload(userId: string, offset: int, limit: int, domain: Option<string>)

  /** The upstream call a handler makes. */
  datatype UpstreamCall =
    | UpdateUserCall(update: UpdatePayload)
    | UserDetailCall(userId: string)
    | MatchResultsCall(page: PagePayload)
    | RecommendedResultsCall(page: PagePayload)
    | MatchStatisticsCall(userId: string)

  /** What a handler does: the upstream call it makes (none when it rejects the request
      first) and the response it sends. */
  datatype Exchange = Exchange(call: Option<UpstreamCall>, response: Response)

  /** The body of a match or recommended request; `None` is a missing property. Offsets and
      limits are integers and the domain filter is a string. */
  datatype PageRequest = PageRequest(userId: Json, offset: Option<int>, limit: Option<int>, domain: Option<string>)

  /** `req.body[key]`. */
  function Field(body: map<string, Json>, key: string): Json {
    if key in body then body[key] else JUndefined
  }

  function ErrorBody(message: string): Json {
    JObj(map["error" := JStr(message)])
  }

  function MessageBody(message: Json): Json {
    JObj(map["message" := message])
  }

  // ---------------------------------------------------------------- POST /api/update-user

  /** The only accepted `user_id`: a non-empty string. */
  predicate ValidUpdateUserId(v: Json) {
    v.JStr? && v.s != ""
  }

  /** The payload coercion of `/api/update-user`. */
  function CoerceUpdate(body: map<string, Json>): UpdatePayload
    requires ValidUpdateUserId(Field(body, "user_id"))
  {
    var industry := Or(Field(body, "industry"), JStr("Technology"));
    var domains := Field(body, "domains");
    var details := Field(body, "details");
    var links := Field(body, "links");
    UpdatePayload(
      Field(body, "user_id").s,
      ToJsString(industry),
      if domains.JArr? then domains.items else [],
      if IsObjectType(details) then details else JObj(map[]),
      if links.JArr? then links.items else [])
  }

  function UpdateUser(body: map<string, Json>, upstream: Reply): (r: Exchange)
    ensures r.call.None? <==> !ValidUpdateUserId(Field(body, "user_id"))
    ensures r.call.None? ==> r.response.status == 400
    ensures r.call.Some? ==> r.call.value.UpdateUserCall? && r.call.value.update.userId == Field(body, "user_id").s
    ensures r.call.Some? ==> r.call == Some(UpdateUserCall(CoerceUpdate(body)))
    ensures r.call.Some? && upstream.Err? ==> r.response == Response(500, ErrorBody("Failed to update user"))
    ensures r.call.Some? && upstream.Ok? ==> r.response == Response(200, upstream.data)
  {
    if !ValidUpdateUserId(Field(body, "user_id")) then
      Exchange(None, Response(400, ErrorBody("user_id is required and must be a string")))
    else
      var call := UpdateUserCall(CoerceUpdate(body));
      match upstream
      case Ok(data) => Exchange(Some(call), Response(200, data))
      case Err => Exchange(Some(call), Response(500, ErrorBody("Failed to update user")))
  }

  /** What the coercion guarantees: `industry` is `Technology` when the given value is falsy,
      and otherwise `String(v)` of it, so a non-empty string is kept as it is; `domains` and `links` are arrays, the given
      ones or empty; `details` has `typeof 'object'` (so `null` and arrays pass through,
      anything else becomes `{}`). */
  lemma CoerceUpdateSpec(body: map<string, Json>)
    requires ValidUpdateUserId(Field(body, "user_id"))
    ensures var p := CoerceUpdate(body);
      && (!Truthy(Field(body, "industry")) ==> p.industry == "Technology")
      && (Field(body, "industry").JStr? && Field(body, "industry").s != "" ==> p.industry == Field(body, "industry").s)
      && (Truthy(Field(body, "industry")) ==> p.industry == ToJsString(Field(body, "industry")))
      && (Field(body, "domains").JArr? ==> p.domains == Field(body, "domains").items)
      && (!Field(body, "domains").JArr? ==> p.domains == [])
      && (Field(body, "links").JArr? ==> p.links == Field(body, "links").items)
      && (!Field(body, "links").JArr? ==> p.links == [])
      && IsObjectType(p.details)
      && (IsObjectType(Field(body, "details")) ==> p.details == Field(body, "details"))
      && (!IsObjectType(Field(body, "details")) ==> p.details == JObj(map[]))
  {
  }

  /** The body that carries an update payload unchanged. */
  function UpdateBody(p: UpdatePayload): map<string, Json> {
    map["user_id" := JStr(p.userId), "industry" := JStr(p.industry), "domains" := JArr(p.domains),
        "details" := p.details, "links" := JArr(p.links)]
  }

  /** Coercion is idempotent: re-posting a forwarded payload forwards it again unchanged,
      provided its industry is not empty. */
  lemma CoerceUpdateIdempotent(body: map<string, Json>)
    requires ValidUpdateUserId(Field(body, "user_id"))
    requires CoerceUpdate(body).industry != ""
    ensures ValidUpdateUserId(Field(UpdateBody(CoerceUpdate(body)), "user_id"))
    ensures CoerceUpdate(UpdateBody(CoerceUpdate(body))) == CoerceUpdate(body)
  {
    CoerceUpdateSpec(body);
  }

  /** The exception to idempotence: an empty array as `industry` is truthy, and `String([])`
      is empty, so an empty industry is forwarded. */
  lemma EmptyArrayIndustryForwardsEmpty(body: map<string, Json>)
    requires ValidUpdateUserId(Field(body, "user_id"))
    requires Field(body, "industry") == JArr([])
    ensures CoerceUpdate(body).industry == ""
  {
  }

  // ---------------------------------------------------------------- GET /api/get-user/:displayId

  /** `message.domain` as an array: the array itself, a string wrapped, anything else empty. */
  function WrapDomain(info: Json): (r: Json)
    ensures r.JArr?
  {
    if info.JArr? then info else if info.JStr? then JArr([info]) else JArr([])
  }

  /** `data` with its `message` property replaced (`data` is an object whenever it has one). */
  function WithMessage(data: Json, message: Json): Json {
    if data.JObj? then JObj(data.fields["message" := message]) else data
  }

  /** The in-place normalisation of a user-detail reply. A truthy `message.domain` becomes
      `message.domains`; a falsy `message.domains` is then set to `[]`. The server is an ES
      module and so runs in strict mode: setting a property on a truthy primitive `message`
      throws, which `None` stands for. On an array the property is set but not serialised. */
  function NormaliseUserDetail(data: Json): Option<Json> {
    var msg := Member(data, "message");
    if !Truthy(msg) then Some(data)
    else
      var info := Member(msg, "domain");
      var msg1 := if Truthy(info) then JObj(msg.fields["domains" := WrapDomain(info)]) else msg;
      if Truthy(Member(msg1, "domains")) then Some(WithMessage(data, msg1))
      else
        match msg1
        case JObj(f) => Some(WithMessage(data, JObj(f["domains" := JArr([])])))
        case JArr(_) => Some(data)
        case _ => None
  }

  /** The skeleton sent when the upstream call fails. */
  function UserFallback(displayId: string): Json {
    JObj(map[
      "message" := JObj(map[
        "user_id" := JStr(displayId),
        "name" := JStr("User"),
        "email" := JStr(displayId + "@example.com"),
        "location" := JStr("Unknown"),
        "skills" := JArr([]),
        "experience" := JArr([]),
        "domains" := JArr([]),
        "jobPreferences" := JObj(map[
          "preferredIndustry" := JStr("Technology"),
          "preferredLocation" := JStr("Remote"),
          "salaryRange" := JStr("50000-80000")])]),
      "status" := JStr("fallback")])
  }

  function GetUser(displayId: string, upstream: Reply): (r: Exchange)
    ensures r.call.None? <==> displayId == ""
    ensures r.call.None? ==> r.response.status == 400
    ensures r.call.Some? ==> r.call.value == UserDetailCall(displayId) && r.response.status == 200
    ensures r.call.Some? && upstream.Err? ==> r.response.body == UserFallback(displayId)
    ensures r.call.Some? && upstream.Ok? ==>
      r.response.body == (if NormaliseUserDetail(upstream.data).Some? then NormaliseUserDetail(upstream.data).value
                          else UserFallback(displayId))
  {
    if displayId == "" then Exchange(None, Response(400, ErrorBody("Display ID is required")))
    else
      var call := UserDetailCall(displayId);
      match upstream
      case Err => Exchange(Some(call), Response(200, UserFallback(displayId)))
      case Ok(data) =>
        match NormaliseUserDetail(data)
        case Some(d) => Exchange(Some(call), Response(200, d))
        case None => Exchange(Some(call), Response(200, UserFallback(displayId)))
  }

  /** The normalisation, case by case: a falsy `message` or an array `message` passes through;
      a truthy primitive `message` sends the fallback; an object `message` ends with a truthy
      `domains`, which is the wrapped `domain` when that is truthy, the existing `domains`
      when that is truthy (even if it is not an array), and `[]` otherwise; no other
      property of the message or of the body changes. */
  lemma NormaliseUserDetailSpec(data: Json)
    ensures var msg := Member(data, "message");
      && (!Truthy(msg) || msg.JArr? ==> NormaliseUserDetail(data) == Some(data))
      && (Truthy(msg) && !msg.JObj? && !msg.JArr? ==> NormaliseUserDetail(data).None?)
  {
  }

  /** What the client receives for an accepted request whose upstream call succeeded: a
      falsy or array `message` as sent upstream, and the fallback skeleton when `message` is
      a truthy primitive. */
  lemma GetUserReplies(displayId: string, data: Json)
    requires displayId != ""
    ensures var msg := Member(data, "message");
      && (!Truthy(msg) || msg.JArr? ==> GetUser(displayId, Ok(data)).response == Response(200, data))
      && (Truthy(msg) && !msg.JObj? && !msg.JArr? ==>
            GetUser(displayId, Ok(data)).response == Response(200, UserFallback(displayId)))
  {
    NormaliseUserDetailSpec(data);
  }

  lemma NormaliseObjectMessage(data: Json)
    requires Member(data, "message").JObj?
    ensures var msg := Member(data, "message");
      var info := Member(msg, "domain");
      var r := NormaliseUserDetail(data);
      && r.Some? && r.value.JObj? && Member(r.value, "message").JObj?
      && Truthy(Member(Member(r.value, "message"), "domains"))
      && (Truthy(info) && info.JArr? ==> Member(Member(r.value, "message"), "domains") == info)
      && (Truthy(info) && info.JStr? ==> Member(Member(r.value, "message"), "domains") == JArr([info]))
      && (Truthy(info) && !info.JArr? && !info.JStr? ==> Member(Member(r.value, "message"), "domains") == JArr([]))
      && (!Truthy(info) && Truthy(Member(msg, "domains")) ==> r.value == data)
      && (!Truthy(info) && !Truthy(Member(msg, "domains")) ==> Member(Member(r.value, "message"), "domains") == JArr([]))
      && (forall k :: k != "domains" ==> Member(Member(r.value, "message"), k) == Member(msg, k))
      && (forall k :: k != "message" ==> Member(r.value, k) == Member(data, k))
  {
    var msg := Member(data, "message");
    if !Truthy(Member(msg, "domain")) && Truthy(Member(msg, "domains")) {
      assert data.fields["message" := msg] == data.fields;
    }
  }

  /** An array `domains` is not enforced: a truthy non-array one is kept as it is. */
  lemma NormaliseKeepsNonArrayDomains()
    ensures var data := JObj(map["message" := JObj(map["domains" := JStr("google.com")])]);
      NormaliseUserDetail(data) == Some(data)
  {
    var data := JObj(map["message" := JObj(map["domains" := JStr("google.com")])]);
    NormaliseObjectMessage(data);
  }

  /** The fallback skeleton names the requested user, invents an `example.com` address,
      has no domains and is marked `fallback`. */
  lemma UserFallbackSpec(displayId: string)
    ensures var f := UserFallback(displayId);
      && Member(Member(f, "message"), "user_id") == JStr(displayId)
      && Member(Member(f, "message"), "email") == JStr(displayId + "@example.com")
      && Member(Member(f, "message"), "domains") == JArr([])
      && Member(f, "status") == JStr("fallback")
  {
  }

  // ---------------------------------------------------------------- canned jobs

  datatype Breakdown = Breakdown(overall: int, skills: int, experience: int)

  datatype Job = Job(id: int, title: string, company: string, location: string, salary: string,
                     description: string, matchScore: int, breakdown: Option<Breakdown>)

  const SoftwareEngineerJob: Job :=
    Job(1, "Software Engineer", "Tech Corp", "Remote", "$80,000 - $120,000",
        "Full-stack development role with modern technologies", 85, Some(Breakdown(85, 90, 80)))

  const FrontendDeveloperJob: Job :=
    Job(2, "Frontend Developer", "Startup Inc", "San Francisco, CA", "$90,000 - $130,000",
        "React/Vue.js development for innovative startup", 78, Some(Breakdown(78, 85, 70)))

  const DataScientistJob: Job :=
    Job(3, "Data Scientist", "Analytics Pro", "New York, NY", "$100,000 - $140,000",
        "Machine learning and data analysis role", 82, Some(Breakdown(82, 88, 75)))

  const MatchFallbackJobs: seq<Job> := [SoftwareEngineerJob, FrontendDeveloperJob, DataScientistJob]

  const RecommendedFallbackJobs: seq<Job> := [
    Job(3, "Senior Developer", "Enterprise Solutions", "New York, NY", "$120,000 - $160,000",
        "Senior role with leadership opportunities", 92, None)]

  function JobJson(j: Job): Json {
    var base := map[
      "id" := JNum(j.id), "title" := JStr(j.title), "company" := JStr(j.company),
      "location" := JStr(j.location), "salary" := JStr(j.salary),
      "description" := JStr(j.description), "match_score" := JNum(j.matchScore)];
    match j.breakdown
    case None => JObj(base)
    case Some(b) =>
      var details := JObj(map["details" := JObj(map["title" := JStr(j.title),
        "company_name" := JStr(j.company), "location" := JStr(j.location)])]);
      var result := JObj(map["overall_match" := JNum(b.overall),
        "skills_match" := JNum(b.skills), "experience_match" := JNum(b.experience)]);
      JObj(base["job_details" := details]["match_result" := result])
  }

  function JobsJson(jobs: seq<Job>): Json {
    JArr(seq(|jobs|, i requires 0 <= i < |jobs| => JobJson(jobs[i])))
  }

  function Ids(jobs: seq<Job>): seq<int> {
    seq(|jobs|, i requires 0 <= i < |jobs| => jobs[i].id)
  }

  /** The filter runs for a domain that is non-blank after trimming and not exactly `all`. */
  predicate FilterApplies(domain: Option<string>) {
    domain.Some? && domain.value != "" && Trim(domain.value) != "" && domain.value != "all"
  }

  /** Whether a canned job survives the lower-cased filter `f`. */
  predicate KeepJob(f: string, job: Job) {
    var t := Lower(job.title);
    if Contains(f, "technology") || Contains(f, "software") then
      Contains(t, "engineer") || Contains(t, "developer") || Contains(t, "software")
    else if Contains(f, "data") then
      Contains(t, "data") || Contains(t, "scientist") || Contains(t, "analyst")
    else true
  }

  function FilterJobs(f: string, jobs: seq<Job>): seq<Job> {
    if jobs == [] then []
    else (if KeepJob(f, jobs[0]) then [jobs[0]] else []) + FilterJobs(f, jobs[1..])
  }

  /** The canned match results after the domain filter. */
  function MatchFallback(domain: Option<string>): seq<Job> {
    if FilterApplies(domain) then FilterJobs(Lower(domain.value), MatchFallbackJobs) else MatchFallbackJobs
  }

  /** The filter keeps exactly the jobs it accepts. */
  lemma {:induction false} FilterJobsSpec(f: string, jobs: seq<Job>)
    ensures forall j :: j in FilterJobs(f, jobs) <==> j in jobs && KeepJob(f, j)
    ensures |FilterJobs(f, jobs)| <= |jobs|
    ensures (forall i :: 0 <= i < |jobs| ==> KeepJob(f, jobs[i])) ==> FilterJobs(f, jobs) == jobs
    decreases |jobs|
  {
    if jobs != [] {
      FilterJobsSpec(f, jobs[1..]);
      assert jobs == [jobs[0]] + jobs[1..];
      if forall i :: 0 <= i < |jobs| ==> KeepJob(f, jobs[i]) {
        assert forall i :: 0 <= i < |jobs[1..]| ==> KeepJob(f, jobs[1..][i]);
      }
    }
  }

  /** The filter works job by job, so it keeps the accepted jobs in their original order:
      filtering a concatenation concatenates the filtered parts. */
  lemma {:induction false} FilterJobsAppend(f: string, a: seq<Job>, b: seq<Job>)
    ensures FilterJobs(f, a + b) == FilterJobs(f, a) + FilterJobs(f, b)
    decreases |a|
  {
    if a == [] {
      assert a + b == b;
    } else {
      FilterJobsAppend(f, a[1..], b);
      var head := if KeepJob(f, a[0]) then [a[0]] else [];
      assert (a + b)[0] == a[0];
      assert (a + b)[1..] == a[1..] + b;
      assert FilterJobs(f, a + b) == head + FilterJobs(f, a[1..] + b);
      assert FilterJobs(f, a) == head + FilterJobs(f, a[1..]);
    }
  }

  lemma SoftwareEngineerLowered()
    ensures Lower(SoftwareEngineerJob.title) == "software engineer"
  {
    LowerOf(SoftwareEngineerJob.title, "software engineer");
  }

  lemma FrontendDeveloperLowered()
    ensures Lower(FrontendDeveloperJob.title) == "frontend developer"
  {
    LowerOf(FrontendDeveloperJob.title, "frontend developer");
  }

  lemma DataScientistLowered()
    ensures Lower(DataScientistJob.title) == "data scientist"
  {
    LowerOf(DataScientistJob.title, "data scientist");
  }

  // Helpers of `EngineerKept`, `DeveloperKept` and `ScientistKept`, and through them of
  // `MatchFallbackByDomain`: which filter keywords each canned job title contains. They
  // state no property of their own. One keyword fact per lemma: several literal `Contains`
  // facts in one proof are costly. A present keyword is shown by its position; an absent
  // one by a character of it that the title lacks.

  lemma EngineerHasEngineer()
    ensures Contains("software engineer", "engineer")
  {
    ContainsAt("software engineer", "engineer", 9);
  }

  lemma EngineerLacksData()
    ensures !Contains("software engineer", "data")
  {
    NotContainsMissingChar("software engineer", "data", 0);
  }

  lemma EngineerLacksScientist()
    ensures !Contains("software engineer", "scientist")
  {
    NotContainsMissingChar("software engineer", "scientist", 1);
  }

  lemma EngineerLacksAnalyst()
    ensures !Contains("software engineer", "analyst")
  {
    NotContainsMissingChar("software engineer", "analyst", 3);
  }

  lemma DeveloperHasDeveloper()
    ensures Contains("frontend developer", "developer")
  {
    ContainsAt("frontend developer", "developer", 9);
  }

  lemma DeveloperLacksData()
    ensures !Contains("frontend developer", "data")
  {
    NotContainsMissingChar("frontend developer", "data", 1);
  }

  lemma DeveloperLacksScientist()
    ensures !Contains("frontend developer", "scientist")
  {
    NotContainsMissingChar("frontend developer", "scientist", 0);
  }

  lemma DeveloperLacksAnalyst()
    ensures !Contains("frontend developer", "analyst")
  {
    NotContainsMissingChar("frontend developer", "analyst", 0);
  }

  lemma ScientistHasData()
    ensures Contains("data scientist", "data")
  {
    ContainsAt("data scientist", "data", 0);
  }

  lemma ScientistLacksEngineer()
    ensures !Contains("data scientist", "engineer")
  {
    NotContainsMissingChar("data scientist", "engineer", 2);
  }

  lemma ScientistLacksDeveloper()
    ensures !Contains("data scientist", "developer")
  {
    NotContainsMissingChar("data scientist", "developer", 2);
  }

  lemma ScientistLacksSoftware()
    ensures !Contains("data scientist", "software")
  {
    NotContainsMissingChar("data scientist", "software", 1);
  }

  /** A technology filter keeps the engineer; a data filter does not. */
  lemma EngineerKept(f: string)
    ensures Contains(f, "technology") || Contains(f, "software") ==> KeepJob(f, SoftwareEngineerJob)
    ensures !Contains(f, "technology") && !Contains(f, "software") && Contains(f, "data") ==> !KeepJob(f, SoftwareEngineerJob)
  {
    SoftwareEngineerLowered();
    EngineerHasEngineer();
    EngineerLacksData();
    EngineerLacksScientist();
    EngineerLacksAnalyst();
  }

  /** A technology filter keeps the developer; a data filter does not. */
  lemma DeveloperKept(f: string)
    ensures Contains(f, "technology") || Contains(f, "software") ==> KeepJob(f, FrontendDeveloperJob)
    ensures !Contains(f, "technology") && !Contains(f, "software") && Contains(f, "data") ==> !KeepJob(f, FrontendDeveloperJob)
  {
    FrontendDeveloperLowered();
    DeveloperHasDeveloper();
    DeveloperLacksData();
    DeveloperLacksScientist();
    DeveloperLacksAnalyst();
  }

  /** A data filter keeps the data scientist; a technology filter does not. */
  lemma ScientistKept(f: string)
    ensures Contains(f, "technology") || Contains(f, "software") ==> !KeepJob(f, DataScientistJob)
    ensures !Contains(f, "technology") && !Contains(f, "software") && Contains(f, "data") ==> KeepJob(f, DataScientistJob)
  {
    DataScientistLowered();
    ScientistHasData();
    ScientistLacksEngineer();
    ScientistLacksDeveloper();
    ScientistLacksSoftware();
  }

  lemma FilterThree(f: string, a: Job, b: Job, c: Job)
    ensures FilterJobs(f, [a, b, c])
      == (if KeepJob(f, a) then [a] else []) + (if KeepJob(f, b) then [b] else []) + (if KeepJob(f, c) then [c] else [])
  {
    assert [a, b, c][1..] == [b, c];
    assert [b, c][1..] == [c];
    assert [c][1..] == [];
    var kc := if KeepJob(f, c) then [c] else [];
    var kb := if KeepJob(f, b) then [b] else [];
    var ka := if KeepJob(f, a) then [a] else [];
    assert FilterJobs(f, [c]) == kc + FilterJobs(f, []) == kc;
    assert FilterJobs(f, [b, c]) == kb + kc;
    assert FilterJobs(f, [a, b, c]) == ka + (kb + kc);
  }

  /** Three jobs under a filter, by which of them it keeps (the three cases that occur). */
  lemma FilterThreeCases(f: string, a: Job, b: Job, c: Job)
    ensures KeepJob(f, a) && KeepJob(f, b) && !KeepJob(f, c) ==> Ids(FilterJobs(f, [a, b, c])) == [a.id, b.id]
    ensures !KeepJob(f, a) && !KeepJob(f, b) && KeepJob(f, c) ==> Ids(FilterJobs(f, [a, b, c])) == [c.id]
    ensures KeepJob(f, a) && KeepJob(f, b) && KeepJob(f, c) ==> Ids(FilterJobs(f, [a, b, c])) == [a.id, b.id, c.id]
  {
    FilterThree(f, a, b, c);
    assert [a] + [b] + [] == [a, b];
    assert [] + [] + [c] == [c];
    assert [a] + [b] + [c] == [a, b, c];
    assert Ids([a, b]) == [a.id, b.id];
    assert Ids([c]) == [c.id];
    assert Ids([a, b, c]) == [a.id, b.id, c.id];
  }

  /** A filter mentioning technology or software keeps the engineer and the developer. */
  lemma TechnologyFilter(f: string)
    requires Contains(f, "technology") || Contains(f, "software")
    ensures Ids(FilterJobs(f, MatchFallbackJobs)) == [1, 2]
  {
    EngineerKept(f);
    DeveloperKept(f);
    ScientistKept(f);
    FilterThreeCases(f, SoftwareEngineerJob, FrontendDeveloperJob, DataScientistJob);
  }

  /** Any other filter mentioning data keeps only the data scientist. */
  lemma DataFilter(f: string)
    requires !Contains(f, "technology") && !Contains(f, "software") && Contains(f, "data")
    ensures Ids(FilterJobs(f, MatchFallbackJobs)) == [3]
  {
    EngineerKept(f);
    DeveloperKept(f);
    ScientistKept(f);
    FilterThreeCases(f, SoftwareEngineerJob, FrontendDeveloperJob, DataScientistJob);
  }

  /** A filter mentioning none of the keywords keeps everything. */
  lemma NeutralFilter(f: string)
    requires !Contains(f, "technology") && !Contains(f, "software") && !Contains(f, "data")
    ensures Ids(FilterJobs(f, MatchFallbackJobs)) == [1, 2, 3]
  {
    FilterThreeCases(f, SoftwareEngineerJob, FrontendDeveloperJob, DataScientistJob);
  }

  /** The match fallback by domain: all three canned jobs when the filter does not apply;
      jobs 1 and 2 (both the engineer and the developer) for a domain mentioning technology
      or software; job 3 for one mentioning data; all three for any other domain. */
  lemma MatchFallbackByDomain(domain: Option<string>)
    ensures !FilterApplies(domain) ==> Ids(MatchFallback(domain)) == [1, 2, 3]
    ensures FilterApplies(domain) &&
      (Contains(Lower(domain.value), "technology") || Contains(Lower(domain.value), "software"))
      ==> Ids(MatchFallback(domain)) == [1, 2]
    ensures FilterApplies(domain) &&
      (!Contains(Lower(domain.value), "technology") && !Contains(Lower(domain.value), "software")
       && Contains(Lower(domain.value), "data"))
      ==> Ids(MatchFallback(domain)) == [3]
    ensures FilterApplies(domain) &&
      (!Contains(Lower(domain.value), "technology") && !Contains(Lower(domain.value), "software")
       && !Contains(Lower(domain.value), "data"))
      ==> Ids(MatchFallback(domain)) == [1, 2, 3]
  {
    if FilterApplies(domain) {
      var f := Lower(domain.value);
      if Contains(f, "technology") || Contains(f, "software") {
        TechnologyFilter(f);
      } else if Contains(f, "data") {
        DataFilter(f);
      } else {
        NeutralFilter(f);
      }
    } else {
      assert Ids(MatchFallbackJobs) == [MatchFallbackJobs[0].id, MatchFallbackJobs[1].id, MatchFallbackJobs[2].id];
    }
  }

  lemma TechnologyDomainFacts(d: string)
    requires d == "technology"
    ensures FilterApplies(Some(d)) && Contains(Lower(d), "technology")
  {
    TechnologyDomainApplies(d);
    TechnologyDomainLowered(d);
  }

  lemma TechnologyDomainApplies(d: string)
    requires d == "technology"
    ensures FilterApplies(Some(d))
  {
    TrimIsBlankIff(d);
    assert !IsJsSpace(d[0]);
  }

  lemma TechnologyDomainLowered(d: string)
    requires d == "technology"
    ensures Contains(Lower(d), "technology")
  {
    LowerOf(d, d);
    ContainsAt(d, "technology", 0);
  }

  /** A `technology` domain keeps two canned jobs, the engineer and the developer. */
  lemma TechnologyFallbackKeepsTwo(d: string)
    requires d == "technology"
    ensures Ids(MatchFallback(Some(d))) == [1, 2]
  {
    TechnologyDomainFacts(d);
    MatchFallbackByDomain(Some(d));
  }

  // ---------------------------------------------------------------- match and recommended results

  /** The domain forwarded upstream: trimmed, and only when non-blank. */
  function UpstreamDomain(domain: Option<string>): Option<string> {
    if domain.Some? && domain.value != "" && Trim(domain.value) != "" then Some(Trim(domain.value)) else None
  }

  /** `{ user_id: String(user_id), offset: parseInt(offset), limit: parseInt(limit), domain? }`. */
  function PagePayloadOf(req: PageRequest, defaultLimit: int): PagePayload {
    PagePayload(ToJsString(req.userId), req.offset.GetOr(0), req.limit.GetOr(defaultLimit), UpstreamDomain(req.domain))
  }

  /** The success body: `{ message: data.message || [] }`. */
  function ResultsBody(data: Json): Json {
    MessageBody(Or(Member(data, "message"), JArr([])))
  }

  function MatchResults(req: PageRequest, upstream: Reply): (r: Exchange)
    ensures r.call.None? <==> !Truthy(req.userId)
    ensures r.call.None? ==> r.response == Response(400, ErrorBody("user_id is required"))
    ensures r.call.Some? ==> r.call.value.MatchResultsCall? && r.response.status == 200
    ensures r.call.Some? ==> r.call.value.page.limit == req.limit.GetOr(10) && r.call.value.page.offset == req.offset.GetOr(0)
    ensures r.call.Some? ==> r.call.value.page.userId == ToJsString(req.userId) && r.call.value.page.domain == UpstreamDomain(req.domain)
    ensures r.call.Some? && upstream.Ok? ==> r.response.body == ResultsBody(upstream.data)
    ensures r.call.Some? && upstream.Err? ==> r.response.body == MessageBody(JobsJson(MatchFallback(req.domain)))
  {
    if !Truthy(req.userId) then Exchange(None, Response(400, ErrorBody("user_id is required")))
    else
      var call := MatchResultsCall(PagePayloadOf(req, 10));
      match upstream
      case Ok(data) => Exchange(Some(call), Response(200, ResultsBody(data)))
      case Err => Exchange(Some(call), Response(200, MessageBody(JobsJson(MatchFallback(req.domain)))))
  }

  function RecommendedResults(req: PageRequest, upstream: Reply): (r: Exchange)
    ensures r.call.None? <==> !Truthy(req.userId)
    ensures r.call.None? ==> r.response == Response(400, ErrorBody("user_id is required"))
    ensures r.call.Some? ==> r.call.value.RecommendedResultsCall? && r.response.status == 200
    ensures r.call.Some? ==> r.call.value.page.limit == req.limit.GetOr(5) && r.call.value.page.offset == req.offset.GetOr(0)
    ensures r.call.Some? ==> r.call.value.page.userId == ToJsString(req.userId) && r.call.value.page.domain == UpstreamDomain(req.domain)
    ensures r.call.Some? && upstream.Ok? ==> r.response.body == ResultsBody(upstream.data)
    ensures r.call.Some? && upstream.Err? ==> r.response.body == MessageBody(JobsJson(RecommendedFallbackJobs))
  {
    if !Truthy(req.userId) then Exchange(None, Response(400, ErrorBody("user_id is required")))
    else
      var call := RecommendedResultsCall(PagePayloadOf(req, 5));
      match upstream
      case Ok(data) => Exchange(Some(call), Response(200, ResultsBody(data)))
      case Err => Exchange(Some(call), Response(200, MessageBody(JobsJson(RecommendedFallbackJobs))))
  }

  /** The forwarded domain is present exactly when the request's domain has a non-white-space
      character, and then it is that domain without surrounding white space. */
  lemma UpstreamDomainSpec(domain: Option<string>)
    ensures UpstreamDomain(domain).Some? <==> domain.Some? && !AllSpace(domain.value)
    ensures UpstreamDomain(domain).Some? ==>
      var d := UpstreamDomain(domain).value;
      d != "" && !IsJsSpace(d[0]) && !IsJsSpace(d[|d| - 1]) && d == Trim(domain.value)
  {
    if domain.Some? {
      TrimIsBlankIff(domain.value);
    }
  }

  /** A successful upstream reply is wrapped as `{ message: data.message || [] }`: the
      upstream message when truthy, an empty list otherwise; it never carries the canned jobs. */
  lemma ResultsBodySpec(data: Json)
    ensures Truthy(Member(data, "message")) ==> Member(ResultsBody(data), "message") == Member(data, "message")
    ensures !Truthy(Member(data, "message")) ==> Member(ResultsBody(data), "message") == JArr([])
  {
  }

  /** The recommended fallback is the one canned senior role whatever the domain: it is
      never filtered. */
  lemma RecommendedFallbackIgnoresDomain(req: PageRequest, domain: Option<string>)
    requires Truthy(req.userId)
    ensures RecommendedResults(req, Err).response == RecommendedResults(req.(domain := domain), Err).response
    ensures Ids(RecommendedFallbackJobs) == [3]
  {
  }

  // ---------------------------------------------------------------- POST /api/get-match-statistics/

  /** The canned counters; 78.5 is kept as its literal. */
  const StatisticsFallback: Json := JObj(map["message" := JObj(map[
    "matched_jobs_count" := JNum(15),
    "recommended_jobs_count" := JNum(8),
    "total_applications" := JNum(3),
    "average_match_score" := JFraction("78.5")])])

  function MatchStatistics(userId: Json, upstream: Reply): (r: Exchange)
    ensures r.call.None? <==> !Truthy(userId)
    ensures r.call.None? ==> r.response == Response(400, ErrorBody("user_id is required"))
    ensures r.call.Some? ==> r.call.value == MatchStatisticsCall(ToJsString(userId)) && r.response.status == 200
    ensures r.call.Some? && upstream.Ok? ==> r.response.body == upstream.data
    ensures r.call.Some? && upstream.Err? ==> r.response.body == StatisticsFallback
  {
    if !Truthy(userId) then Exchange(None, Response(400, ErrorBody("user_id is required")))
    else
      var call := MatchStatisticsCall(ToJsString(userId));
      match upstream
      case Ok(data) => Exchange(Some(call), Response(200, data))
      case Err => Exchange(Some(call), Response(200, StatisticsFallback))
  }

  /** Every read endpoint answers 200 whenever it accepted the request, so an upstream
      outage is never visible in the status code. */
  lemma ReadEndpointsHideOutages(req: PageRequest, displayId: string, upstream: Reply)
    ensures Truthy(req.userId) ==>
      (MatchResults(req, upstream).response.status == 200
       && RecommendedResults(req, upstream).response.status == 200
       && MatchStatistics(req.userId, upstream).response.status == 200)
    ensures displayId != "" ==> GetUser(displayId, upstream).response.status == 200
  {
  }
}

=== FILE: identity.dfy ===
/** Display-id derivation and the collision-probing allocation loop of the client's
    `checkAndCreateUserProfile` (src/stores/auth.js). The username index is an abstract map
    from display id to user id; the random four-digit suffixes are an input sequence. */
module Identity {
  import opened Text

  type Uid = string

  /** Upper bound on loop iterations, and so on index probes. */
  const MaxAttempts: nat := 10

  /** `email.split('@')[0]`: everything before the first `@`, or all of `email`. */
  function LocalPart(email: string): (r: string)
    ensures r <= email && '@' !in r
    ensures |r| < |email| ==> email[|r|] == '@'
  {
    if email == [] || email[0] == '@' then [] else [email[0]] + LocalPart(email[1..])
  }

  /** `s.replace(/[^a-zA-Z0-9]/g, '')`. */
  function StripNonAlnum(s: string): (r: string)
    ensures AllAlnum(r)
  {
    if s == [] then []
    else (if IsAlnum(s[0]) then [s[0]] else []) + StripNonAlnum(s[1..])
  }

  /** The display-id base name of an email address. */
  function BaseName(email: string): (r: string)
    ensures AllAlnum(r)
  {
    StripNonAlnum(LocalPart(email))
  }

  /** The stripping works character by character: it distributes over concatenation. */
  lemma {:induction false} StripDistributes(a: string, b: string)
    ensures StripNonAlnum(a + b) == StripNonAlnum(a) + StripNonAlnum(b)
    decreases |a|
  {
    if a == [] {
      assert a + b == b;
    } else {
      StripDistributes(a[1..], b);
      var head := if IsAlnum(a[0]) then [a[0]] else [];
      assert (a + b)[0] == a[0];
      assert (a + b)[1..] == a[1..] + b;
      assert StripNonAlnum(a + b) == head + StripNonAlnum(a[1..] + b);
      assert StripNonAlnum(a) == head + StripNonAlnum(a[1..]);
      assert head + (StripNonAlnum(a[1..]) + StripNonAlnum(b)) == (head + StripNonAlnum(a[1..])) + StripNonAlnum(b);
    }
  }

  /** The stripping keeps a character exactly when it is alphanumeric and occurs in the input. */
  lemma {:induction false} StripMembership(a: string)
    ensures forall c :: c in StripNonAlnum(a) <==> c in a && IsAlnum(c)
    decreases |a|
  {
    if a != [] {
      StripMembership(a[1..]);
      assert a == [a[0]] + a[1..];
    }
  }

  /** An alphanumeric string is left unchanged, so stripping twice is stripping once. */
  lemma {:induction false} StripIdempotent(a: string)
    ensures AllAlnum(a) ==> StripNonAlnum(a) == a
    ensures StripNonAlnum(StripNonAlnum(a)) == StripNonAlnum(a)
    decreases |a|
  {
    if a != [] {
      StripIdempotent(a[1..]);
      var r := StripNonAlnum(a);
      var rest := StripNonAlnum(a[1..]);
      if IsAlnum(a[0]) {
        assert r == [a[0]] + rest;
        assert r[0] == a[0] && r[1..] == rest;
        assert StripNonAlnum(r) == [a[0]] + StripNonAlnum(rest);
      } else {
        assert r == rest;
      }
    }
  }

  /** The base name of an address whose local part is already alphanumeric is that local part. */
  lemma BaseNameOfPlainAddress(local: string, domain: string)
    requires AllAlnum(local)
    ensures BaseName(local + "@" + domain) == local
  {
    LocalPartOf(local, domain);
    StripIdempotent(local);
  }

  lemma {:induction false} LocalPartOf(local: string, domain: string)
    requires '@' !in local
    ensures LocalPart(local + "@" + domain) == local
    decreases |local|
  {
    if local != [] {
      LocalPartOf(local[1..], domain);
      assert (local + "@" + domain)[1..] == local[1..] + "@" + domain;
    }
  }

  /** The candidate built from a random suffix: `${baseName}${randomDigits}`. */
  function Candidate(base: string, suffix: int): string {
    base + IntToDecimal(suffix)
  }

  /** What `Math.floor(1000 + Math.random() * 9000)` can produce, one value per collision. */
  predicate ValidSuffixes(suffixes: seq<int>) {
    |suffixes| >= MaxAttempts && forall i :: 0 <= i < |suffixes| ==> 1000 <= suffixes[i] <= 9999
  }

  /** Outcome of the loop: the id, the number of index probes made, and whether the last
      probe found the id unclaimed (`false` when the loop ran out of attempts). */
  datatype Allocation = Allocation(displayId: string, probes: nat, verifiedFree: bool)

  /** The ids the loop generates in turn, one per collision: `drawn[k]` is the candidate
      built after the `k`-th collision. Drawing them up front changes nothing, since each
      suffix is used only at its own collision. */
  function Candidates(base: string, suffixes: seq<int>): (drawn: seq<string>)
    ensures |drawn| == |suffixes|
    ensures forall k :: 0 <= k < |suffixes| ==> drawn[k] == Candidate(base, suffixes[k])
  {
    seq(|suffixes|, k requires 0 <= k < |suffixes| => Candidate(base, suffixes[k]))
  }

  /** The `while (!isUnique && attempts < 10)` loop, from state (`candidate`, `attempts`).
      A free candidate ends the loop; a claimed one is replaced by the next drawn candidate.
      After ten iterations the current candidate is returned without a probe. */
  function Probe(usernames: map<string, Uid>, drawn: seq<string>, candidate: string, attempts: nat): (r: Allocation)
    requires attempts <= MaxAttempts && |drawn| >= MaxAttempts
    ensures attempts <= r.probes <= MaxAttempts
    ensures r.verifiedFree ==> r.displayId !in usernames && r.probes > attempts
    ensures !r.verifiedFree ==> r.probes == MaxAttempts
    ensures !r.verifiedFree && attempts < MaxAttempts ==> r.displayId == drawn[MaxAttempts - 1]
    ensures r.displayId == candidate || exists k :: attempts <= k < MaxAttempts && r.displayId == drawn[k]
    ensures !r.verifiedFree && attempts < MaxAttempts ==>
      (candidate in usernames && forall k :: attempts <= k < MaxAttempts - 1 ==> drawn[k] in usernames)
    decreases MaxAttempts - attempts
  {
    if attempts == MaxAttempts then Allocation(candidate, attempts, false)
    else if candidate !in usernames then Allocation(candidate, attempts + 1, true)
    else Probe(usernames, drawn, drawn[attempts], attempts + 1)
  }

  /** The candidate the loop probes at position `j` when it starts on `start` at position
      `attempts`: `start` itself, and afterwards the candidate drawn after the previous
      collision. */
  function ProbedAt(drawn: seq<string>, start: string, attempts: nat, j: nat): string
    requires attempts <= j < MaxAttempts && |drawn| >= MaxAttempts
  {
    if j == attempts then start else drawn[j - 1]
  }

  /** A verified result is the candidate the loop probed last. */
  lemma {:induction false} ProbeFreeIsLastProbed(usernames: map<string, Uid>, drawn: seq<string>, candidate: string, attempts: nat)
    requires attempts <= MaxAttempts && |drawn| >= MaxAttempts
    ensures var r := Probe(usernames, drawn, candidate, attempts);
      r.verifiedFree ==> r.displayId == ProbedAt(drawn, candidate, attempts, r.probes - 1)
    decreases MaxAttempts - attempts
  {
    if attempts < MaxAttempts && candidate in usernames {
      ProbeFreeIsLastProbed(usernames, drawn, drawn[attempts], attempts + 1);
    }
  }

  /** Every candidate probed before a verified result was claimed. */
  lemma {:induction false} ProbeClaimedBeforeFree(usernames: map<string, Uid>, drawn: seq<string>, candidate: string, attempts: nat)
    requires attempts <= MaxAttempts && |drawn| >= MaxAttempts
    ensures var r := Probe(usernames, drawn, candidate, attempts);
      r.verifiedFree ==> forall j :: attempts <= j < r.probes - 1 ==> ProbedAt(drawn, candidate, attempts, j) in usernames
    decreases MaxAttempts - attempts
  {
    if attempts < MaxAttempts && candidate in usernames {
      ProbeClaimedBeforeFree(usernames, drawn, drawn[attempts], attempts + 1);
      var r := Probe(usernames, drawn, drawn[attempts], attempts + 1);
      if r.verifiedFree {
        forall j | attempts < j < r.probes - 1
          ensures ProbedAt(drawn, candidate, attempts, j) in usernames
        {
          assert ProbedAt(drawn, drawn[attempts], attempts + 1, j) == ProbedAt(drawn, candidate, attempts, j);
        }
      }
    }
  }

  /** The allocation loop started on the email's base name. */
  function AllocateDisplayId(usernames: map<string, Uid>, email: string, suffixes: seq<int>): (r: Allocation)
    requires ValidSuffixes(suffixes)
    ensures 1 <= r.probes <= MaxAttempts
    ensures BaseName(email) !in usernames ==> r == Allocation(BaseName(email), 1, true)
  {
    Probe(usernames, Candidates(BaseName(email), suffixes), BaseName(email), 0)
  }

  /** The loop's promises: at most ten probes; an unclaimed base name is returned verbatim;
      any other result is the base name followed by one of the four-digit suffixes, so it is
      alphanumeric; the loop gives up without a probe only when all ten probes collided,
      and then returns the tenth generated candidate; a claimed id is returned only then. */
  lemma AllocateSpec(usernames: map<string, Uid>, email: string, suffixes: seq<int>)
    requires ValidSuffixes(suffixes)
    ensures var r := AllocateDisplayId(usernames, email, suffixes);
      && (r.displayId == BaseName(email)
          || exists k :: 0 <= k < MaxAttempts && r.displayId == Candidate(BaseName(email), suffixes[k]))
      && AllAlnum(r.displayId)
      && (r.verifiedFree ==> r.displayId !in usernames)
      && (!r.verifiedFree <==>
            BaseName(email) in usernames
            && forall k :: 0 <= k < MaxAttempts - 1 ==> Candidate(BaseName(email), suffixes[k]) in usernames)
      && (!r.verifiedFree ==> r.probes == MaxAttempts && r.displayId == Candidate(BaseName(email), suffixes[MaxAttempts - 1]))
  {
    var base := BaseName(email);
    var drawn := Candidates(base, suffixes);
    var r := AllocateDisplayId(usernames, email, suffixes);
    ProbeFromStart(usernames, drawn, base);
    ClaimedCandidatesIff(usernames, base, suffixes);
    if r.displayId != base {
      var k :| 0 <= k < MaxAttempts && r.displayId == drawn[k];
      CandidateAlnum(base, suffixes[k]);
    }
  }

  /** The loop's outcome from the base name, over any drawn candidates: the result is the
      base name or a drawn candidate, and the loop runs out exactly when the base name and
      the first nine drawn candidates are claimed, returning the tenth. */
  lemma ProbeFromStart(usernames: map<string, Uid>, drawn: seq<string>, base: string)
    requires |drawn| >= MaxAttempts
    ensures var r := Probe(usernames, drawn, base, 0);
      && (r.displayId == base || exists k :: 0 <= k < MaxAttempts && r.displayId == drawn[k])
      && (!r.verifiedFree <==> base in usernames && forall k :: 0 <= k < MaxAttempts - 1 ==> drawn[k] in usernames)
      && (!r.verifiedFree ==> r.probes == MaxAttempts && r.displayId == drawn[MaxAttempts - 1])
  {
    if base in usernames && forall k :: 0 <= k < MaxAttempts - 1 ==> drawn[k] in usernames {
      ProbeAllClaimed(usernames, drawn, base, 0);
    }
  }

  /** The drawn candidates are claimed exactly when the candidates built from the suffixes are. */
  lemma ClaimedCandidatesIff(usernames: map<string, Uid>, base: string, suffixes: seq<int>)
    requires |suffixes| >= MaxAttempts
    ensures (forall k :: 0 <= k < MaxAttempts - 1 ==> Candidates(base, suffixes)[k] in usernames)
      <==> (forall k :: 0 <= k < MaxAttempts - 1 ==> Candidate(base, suffixes[k]) in usernames)
  {
    forall k | 0 <= k < MaxAttempts - 1
      ensures Candidates(base, suffixes)[k] == Candidate(base, suffixes[k])
    {
    }
  }

  /** The loop stops at the first unclaimed candidate in probe order (the base name, then
      the base name with each drawn suffix): a verified id is unclaimed, it is the candidate
      probed last, and every candidate probed before it was claimed. */
  lemma AllocateFirstFree(usernames: map<string, Uid>, email: string, suffixes: seq<int>)
    requires ValidSuffixes(suffixes)
    ensures var r := AllocateDisplayId(usernames, email, suffixes);
      var base := BaseName(email);
      var drawn := Candidates(base, suffixes);
      r.verifiedFree ==>
        && r.displayId !in usernames
        && r.displayId == ProbedAt(drawn, base, 0, r.probes - 1)
        && forall j :: 0 <= j < r.probes - 1 ==> ProbedAt(drawn, base, 0, j) in usernames
  {
    var base := BaseName(email);
    ProbeFreeIsLastProbed(usernames, Candidates(base, suffixes), base, 0);
    ProbeClaimedBeforeFree(usernames, Candidates(base, suffixes), base, 0);
  }

  /** A candidate is alphanumeric, the base name followed by four digits. */
  lemma CandidateAlnum(base: string, suffix: int)
    requires AllAlnum(base) && 1000 <= suffix <= 9999
    ensures AllAlnum(Candidate(base, suffix)) && |Candidate(base, suffix)| == |base| + 4
  {
    FourDigits(suffix);
    var d := IntToDecimal(suffix);
    assert forall i :: 0 <= i < |d| ==> IsAlnum(d[i]);
  }

  /** When the current candidate and every later probed candidate are claimed, the loop
      runs out of attempts and returns the last generated candidate. */
  lemma {:induction false} ProbeAllClaimed(usernames: map<string, Uid>, drawn: seq<string>, candidate: string, attempts: nat)
    requires attempts < MaxAttempts && |drawn| >= MaxAttempts
    requires candidate in usernames
    requires forall k :: attempts <= k < MaxAttempts - 1 ==> drawn[k] in usernames
    ensures Probe(usernames, drawn, candidate, attempts) == Allocation(drawn[MaxAttempts - 1], MaxAttempts, false)
    decreases MaxAttempts - attempts
  {
    if attempts + 1 < MaxAttempts {
      ProbeAllClaimed(usernames, drawn, drawn[attempts], attempts + 1);
    }
  }

  /** Allocation does not guarantee uniqueness: when the base name and all ten generated
      candidates are claimed, the returned id is itself claimed and no error is raised. */
  lemma AllocationMayReturnClaimedId(usernames: map<string, Uid>, email: string, suffixes: seq<int>)
    requires ValidSuffixes(suffixes)
    requires BaseName(email) in usernames
    requires forall k :: 0 <= k < MaxAttempts ==> Candidate(BaseName(email), suffixes[k]) in usernames
    ensures AllocateDisplayId(usernames, email, suffixes).displayId in usernames
    ensures AllocateDisplayId(usernames, email, suffixes).probes == MaxAttempts
  {
    ProbeAllClaimed(usernames, Candidates(BaseName(email), suffixes), BaseName(email), 0);
  }
}

=== FILE: jsvalue.dfy ===
/** JavaScript values as they arrive in JSON request and response bodies, with the three
    operations the handlers apply to them: truthiness, property access and `String(v)`. */
module JsValue {
  import opened Text

  /** A JavaScript value reachable from parsed JSON. `JUndefined` stands for a missing
      property; integral numbers are `JNum`; a non-integral number is kept as its
      canonical literal in `JFraction` (for example `"78.5"`). */
  datatype Json =
    | JUndefined
    | JNull
    | JBool(b: bool)
    | JNum(n: int)
    | JFraction(literal: string)
    | JStr(s: string)
    | JArr(items: seq<Json>)
    | JObj(fields: map<string, Json>)

  /** The outcome of an HTTP call as the caller sees it: a 2xx response with its parsed body,
      or a rejection (connection failure, timeout, non-2xx status). */
  datatype Reply = Ok(data: Json) | Err

  /** An array of strings. */
  function Strings(ss: seq<string>): (r: seq<Json>)
    ensures |r| == |ss| && forall i :: 0 <= i < |ss| ==> r[i] == JStr(ss[i])
  {
    seq(|ss|, i requires 0 <= i < |ss| => JStr(ss[i]))
  }

  /** JavaScript truthiness: `undefined`, `null`, `false`, `0` and `""` are falsy. A
      non-integral number is never zero, so it is truthy; arrays and objects always are. */
  predicate Truthy(v: Json) {
    match v
    case JUndefined => false
    case JNull => false
    case JBool(b) => b
    case JNum(n) => n != 0
    case JFraction(_) => true
    case JStr(s) => s != ""
    case JArr(_) => true
    case JObj(_) => true
  }

  /** `a || b`. */
  function Or(a: Json, b: Json): (r: Json)
    ensures r == a || r == b
    ensures Truthy(r) <==> Truthy(a) || Truthy(b)
    ensures Truthy(a) ==> r == a
    ensures !Truthy(a) ==> r == b
  {
    if Truthy(a) then a else b
  }

  /** `v?.key` for the keys the handlers read (none of them is inherited from a prototype):
      the property of an object, `undefined` for anything else or for a missing key. */
  function Member(v: Json, key: string): Json {
    if v.JObj? && key in v.fields then v.fields[key] else JUndefined
  }

  /** `typeof v === 'object'`, which holds for `null` and arrays too. */
  predicate IsObjectType(v: Json) {
    v.JNull? || v.JArr? || v.JObj?
  }

  /** `String(v)` on a parsed-JSON value whose objects have the default `toString`. */
  function ToJsString(v: Json): string
    decreases v
  {
    match v
    case JUndefined => "undefined"
    case JNull => "null"
    case JBool(b) => if b then "true" else "false"
    case JNum(n) => IntToDecimal(n)
    case JFraction(lit) => lit
    case JStr(s) => s
    case JArr(items) =>
      JoinComma(seq(|items|, i requires 0 <= i < |items| =>
        if items[i].JUndefined? || items[i].JNull? then "" else ToJsString(items[i])))
    case JObj(_) => "[object Object]"
  }

  /** `parts.join(',')`. */
  function JoinComma(parts: seq<string>): string
  {
    if parts == [] then ""
    else if |parts| == 1 then parts[0]
    else parts[0] + "," + JoinComma(parts[1..])
  }

  /** `String(v)` leaves a string unchanged; renders an integer in decimal, so that a
      non-negative one reads back as itself; renders an array of strings as the strings
      joined by commas; and renders `null` and `undefined` elements of an array as empty. */
  lemma ToJsStringRules(s: string, n: int, ss: seq<string>, items: seq<Json>)
    ensures ToJsString(JStr(s)) == s
    ensures ToJsString(JNum(n)) == IntToDecimal(n)
    ensures n >= 0 ==> AllDigits(ToJsString(JNum(n))) && DecimalValue(ToJsString(JNum(n))) == n
    ensures n < 0 ==> ToJsString(JNum(n)) == "-" + ToJsString(JNum(-n))
    ensures ToJsString(JArr(Strings(ss))) == JoinComma(ss)
    ensures (forall i :: 0 <= i < |items| ==> items[i].JNull? || items[i].JUndefined?) ==>
      ToJsString(JArr(items)) == JoinComma(seq(|items|, i => ""))
  {
    if n >= 0 {
      DecimalRoundTrip(n);
    }
    var js := Strings(ss);
    var parts := seq(|js|, i requires 0 <= i < |js| =>
      if js[i].JUndefined? || js[i].JNull? then "" else ToJsString(js[i]));
    assert parts == ss;
    if forall i :: 0 <= i < |items| ==> items[i].JNull? || items[i].JUndefined? {
      var ps := seq(|items|, i requires 0 <= i < |items| =>
        if items[i].JUndefined? || items[i].JNull? then "" else ToJsString(items[i]));
      assert ps == seq(|items|, i => "");
    }
  }

  /** Joining appends one comma per further element. */
  lemma {:induction false} JoinCommaSnoc(parts: seq<string>, last: string)
    requires parts != []
    ensures JoinComma(parts + [last]) == JoinComma(parts) + "," + last
    decreases |parts|
  {
    if |parts| == 1 {
      assert (parts + [last])[1..] == [last];
    } else {
      JoinCommaSnoc(parts[1..], last);
      assert (parts + [last])[1..] == parts[1..] + [last];
    }
  }

  /** Concrete values of `String(v)`. */
  lemma ToJsStringExamples()
    ensures ToJsString(JStr("alok")) == "alok"
    ensures ToJsString(JNum(42)) == "42"
    ensures ToJsString(JBool(true)) == "true"
    ensures ToJsString(JObj(map[])) == "[object Object]"
    ensures ToJsString(JArr([JStr("a"), JNull, JStr("b")])) == "a,,b"
  {
    assert NatToDecimal(42) == NatToDecimal(4) + [DigitChar(2)];
    var items := [JStr("a"), JNull, JStr("b")];
    var parts := seq(|items|, i requires 0 <= i < |items| =>
      if items[i].JUndefined? || items[i].JNull? then "" else ToJsString(items[i]));
    assert parts == ["a", "", "b"];
    assert JoinComma(["a", "", "b"]) == "a" + "," + ("" + "," + "b");
  }
}

=== FILE: profile_data.dfy ===
/** The profile record kept in the document store under `users/<uid>/profile`, with the
    absent-or-present distinctions the client code tests. */
module ProfileData {
  import opened Common
  import opened JsValue

  datatype PersonalInfo = PersonalInfo(name: string, email: string, phone: string, location: string)

  datatype JobPreferences = JobPreferences(
    preferredIndustry: string,
    minSalary: int,
    maxSalary: int,
    companyCareerPageUrls: seq<string>)

  /** A stored profile. Missing `skills` reads as `[]` and a missing `displayId` as `""`,
      which is how the code treats them (`|| []`, truthiness); `domain` distinguishes a
      missing list (`None`) from an empty one, because the two call sites of the inference
      rule test for these differently. */
  datatype Profile = Profile(
    personalInfo: Option<PersonalInfo>,
    skills: seq<string>,
    experience: seq<Json>,
    education: seq<Json>,
    projects: seq<Json>,
    jobPreferences: Option<JobPreferences>,
    displayId: string,
    domain: Option<seq<Json>>)

  /** `profile.jobPreferences?.preferredIndustry`, with a missing value read as `""`. */
  function PreferredIndustry(p: Profile): string {
    if p.jobPreferences.Some? then p.jobPreferences.value.preferredIndustry else ""
  }

  /** `profile.jobPreferences?.companyCareerPageUrls || []`. */
  function CareerPageUrls(p: Profile): seq<string> {
    if p.jobPreferences.Some? then p.jobPreferences.value.companyCareerPageUrls else []
  }

  /** The skeleton written for a new user: empty collections, zero salaries, an empty
      preferred industry, the sign-in email and the allocated display id. */
  function NewProfile(email: string, displayId: string): Profile {
    Profile(
      Some(PersonalInfo("", email, "", "")),
      [], [], [], [],
      Some(JobPreferences("", 0, 0, [])),
      displayId,
      None)
  }

  /** The empty object `{}` the client creates when it has no profile yet. */
  const EmptyProfile: Profile := Profile(None, [], [], [], [], None, "", None)

  /** The profile as a JSON object (the `details` of a sync payload). */
  function ProfileJson(p: Profile): Json {
    var base := map[
      "skills" := JArr(Strings(p.skills)),
      "experience" := JArr(p.experience),
      "education" := JArr(p.education),
      "projects" := JArr(p.projects),
      "displayId" := JStr(p.displayId)];
    var withInfo := if p.personalInfo.Some? then
      var i := p.personalInfo.value;
      base["personalInfo" := JObj(map["name" := JStr(i.name), "email" := JStr(i.email),
        "phone" := JStr(i.phone), "location" := JStr(i.location)])]
      else base;
    var withPrefs := if p.jobPreferences.Some? then
      var j := p.jobPreferences.value;
      withInfo["jobPreferences" := JObj(map["preferredIndustry" := JStr(j.preferredIndustry),
        "minSalary" := JNum(j.minSalary), "maxSalary" := JNum(j.maxSalary),
        "companyCareerPageUrls" := JArr(Strings(j.companyCareerPageUrls))])]
      else withInfo;
    JObj(if p.domain.Some? then withPrefs["domain" := JArr(p.domain.value)] else withPrefs)
  }
}

=== FILE: repository.dfy ===
/** The client's profile store logic (src/stores/auth.js): `checkAndCreateUserProfile` as a
    transition on the document store's two maps, the profile load that fills in inferred
    domains, and the external fetch that takes domains from the gateway. */
module Repository {
  import opened Common
  import opened JsValue
  import opened ProfileData
  import opened Identity
  import opened DomainInference

  /** The two document-store maps this core touches: `users/<uid>/profile` and `usernames/<id>`. */
  datatype Store = Store(profiles: map<Uid, Profile>, usernames: map<string, Uid>)

  /** The authenticated user handed over by the sign-in provider. */
  datatype AuthUser = AuthUser(uid: Uid, email: string)

  /** The store after `checkAndCreateUserProfile`, and the profile handed to `seedUserProfile`
      (only for a new user). The seed's own outcome is caught and logged, so it has no
      bearing on the store. */
  datatype Creation = Creation(store: Store, seeded: Option<Profile>)

  /** Every profile with a display id is the owner of that id in the username index. */
  ghost predicate Consistent(st: Store) {
    forall u :: u in st.profiles && st.profiles[u].displayId != "" ==>
      st.profiles[u].displayId in st.usernames && st.usernames[st.profiles[u].displayId] == u
  }

  /** No two profiles share a non-empty display id. */
  ghost predicate UniqueDisplayIds(st: Store) {
    forall u, v :: u in st.profiles && v in st.profiles && u != v && st.profiles[u].displayId != "" ==>
      st.profiles[u].displayId != st.profiles[v].displayId
  }

  lemma ConsistentIsUnique(st: Store)
    requires Consistent(st)
    ensures UniqueDisplayIds(st)
  {
  }

  /** `checkAndCreateUserProfile(user)`: a profile with a display id is left alone; a profile
      without one is repaired with the base name, which is claimed in the index whoever held
      it; a new user gets an allocated id and a skeleton profile, written together with the
      index entry, and the skeleton is then pushed. */
  function CheckAndCreate(st: Store, user: AuthUser, suffixes: seq<int>): (r: Creation)
    requires ValidSuffixes(suffixes)
    ensures user.uid in r.store.profiles
    ensures forall u :: u in st.profiles && u != user.uid ==> u in r.store.profiles && r.store.profiles[u] == st.profiles[u]
    ensures r.store.profiles.Keys == st.profiles.Keys + {user.uid}
    ensures user.uid in st.profiles && st.profiles[user.uid].displayId != "" ==> r == Creation(st, None)
    ensures r.seeded.Some? <==> user.uid !in st.profiles
  {
    if user.uid in st.profiles then
      var p := st.profiles[user.uid];
      if p.displayId != "" then Creation(st, None)
      else
        var id := BaseName(user.email);
        Creation(Store(st.profiles[user.uid := p.(displayId := id)], st.usernames[id := user.uid]), None)
    else
      var id := AllocateDisplayId(st.usernames, user.email, suffixes).displayId;
      var created := NewProfile(user.email, id);
      Creation(Store(st.profiles[user.uid := created], st.usernames[id := user.uid]), Some(created))
  }

  /** The new-user path: the skeleton profile with the allocated id, and the index entry
      for that id pointing at the user, written together; nothing else changes but a
      prior claim on the same id, which only an exhausted allocation can meet. */
  lemma NewUserSpec(st: Store, user: AuthUser, suffixes: seq<int>)
    requires ValidSuffixes(suffixes) && user.uid !in st.profiles
    ensures var a := AllocateDisplayId(st.usernames, user.email, suffixes);
      var r := CheckAndCreate(st, user, suffixes);
      && r.store.profiles[user.uid] == NewProfile(user.email, a.displayId)
      && r.store.usernames == st.usernames[a.displayId := user.uid]
      && r.seeded == Some(NewProfile(user.email, a.displayId))
      && (a.verifiedFree ==> r.store.usernames.Keys == st.usernames.Keys + {a.displayId}
                             && a.displayId !in st.usernames)
  {
  }

  /** The repair path sets the display id to the base name and claims that name in the
      index unconditionally, overwriting any other owner. */
  lemma RepairSpec(st: Store, user: AuthUser, suffixes: seq<int>)
    requires ValidSuffixes(suffixes)
    requires user.uid in st.profiles && st.profiles[user.uid].displayId == ""
    ensures var r := CheckAndCreate(st, user, suffixes);
      && r.store.profiles[user.uid] == st.profiles[user.uid].(displayId := BaseName(user.email))
      && r.store.usernames == st.usernames[BaseName(user.email) := user.uid]
      && r.seeded.None?
  {
  }

  /** A second call for the same user changes nothing, whatever suffixes either call draws. */
  lemma CheckAndCreateIdempotent(st: Store, user: AuthUser, suffixes: seq<int>, suffixes2: seq<int>)
    requires ValidSuffixes(suffixes) && ValidSuffixes(suffixes2)
    ensures var s1 := CheckAndCreate(st, user, suffixes).store;
      CheckAndCreate(s1, user, suffixes2) == Creation(s1, None)
  {
    var s1 := CheckAndCreate(st, user, suffixes).store;
    if s1.profiles[user.uid].displayId == "" {
      if user.uid !in st.profiles {
        EmptyAllocationIsBase(st.usernames, user.email, suffixes);
      }
      RepairSettled(s1, user, suffixes2);
    }
  }

  /** An allocated id is empty only when the base name is: every suffixed candidate has
      four more characters than the base name. */
  lemma EmptyAllocationIsBase(usernames: map<string, Uid>, email: string, suffixes: seq<int>)
    requires ValidSuffixes(suffixes)
    ensures AllocateDisplayId(usernames, email, suffixes).displayId == "" ==> BaseName(email) == ""
  {
    AllocateSpec(usernames, email, suffixes);
    var a := AllocateDisplayId(usernames, email, suffixes);
    if a.displayId != BaseName(email) {
      var k :| 0 <= k < MaxAttempts && a.displayId == Candidate(BaseName(email), suffixes[k]);
      CandidateAlnum(BaseName(email), suffixes[k]);
    }
  }

  /** A profile whose empty display id is already the base name and owns it in the index
      is repaired to itself: the repair writes what is already there. */
  lemma RepairSettled(s1: Store, user: AuthUser, suffixes: seq<int>)
    requires ValidSuffixes(suffixes)
    requires user.uid in s1.profiles && s1.profiles[user.uid].displayId == "" && BaseName(user.email) == ""
    requires "" in s1.usernames && s1.usernames[""] == user.uid
    ensures CheckAndCreate(s1, user, suffixes) == Creation(s1, None)
  {
    var p1 := s1.profiles[user.uid];
    assert p1.(displayId := "") == p1;
    assert s1.usernames["" := user.uid] == s1.usernames;
    assert s1.profiles[user.uid := p1] == s1.profiles;
  }

  /** A new user whose allocation found a free id keeps the store consistent, and so keeps
      display ids unique. */
  lemma NewUserPreservesConsistency(st: Store, user: AuthUser, suffixes: seq<int>)
    requires ValidSuffixes(suffixes) && Consistent(st) && user.uid !in st.profiles
    requires AllocateDisplayId(st.usernames, user.email, suffixes).verifiedFree
    ensures Consistent(CheckAndCreate(st, user, suffixes).store)
  {
    var a := AllocateDisplayId(st.usernames, user.email, suffixes);
    var r := CheckAndCreate(st, user, suffixes).store;
    AllocateSpec(st.usernames, user.email, suffixes);
    forall u | u in r.profiles && r.profiles[u].displayId != ""
      ensures r.profiles[u].displayId in r.usernames && r.usernames[r.profiles[u].displayId] == u
    {
      if u != user.uid {
        assert r.profiles[u] == st.profiles[u];
        assert st.profiles[u].displayId != a.displayId;
      }
    }
  }

  /** A repair whose base name is unclaimed, or already claimed by the same user, keeps the
      store consistent. */
  lemma RepairPreservesConsistency(st: Store, user: AuthUser, suffixes: seq<int>)
    requires ValidSuffixes(suffixes) && Consistent(st)
    requires user.uid in st.profiles && st.profiles[user.uid].displayId == ""
    requires BaseName(user.email) !in st.usernames || st.usernames[BaseName(user.email)] == user.uid
    ensures Consistent(CheckAndCreate(st, user, suffixes).store)
  {
    var base := BaseName(user.email);
    var r := CheckAndCreate(st, user, suffixes).store;
    forall u | u in r.profiles && r.profiles[u].displayId != ""
      ensures r.profiles[u].displayId in r.usernames && r.usernames[r.profiles[u].displayId] == u
    {
      if u != user.uid {
        assert r.profiles[u] == st.profiles[u];
      }
    }
  }

  /** The repair path can break uniqueness: when another user already holds the base name,
      afterwards both profiles carry it and the index points at the repaired user. */
  lemma RepairCanDuplicateDisplayId(st: Store, user: AuthUser, other: Uid, suffixes: seq<int>)
    requires ValidSuffixes(suffixes)
    requires user.uid in st.profiles && st.profiles[user.uid].displayId == ""
    requires other in st.profiles && other != user.uid
    requires BaseName(user.email) != "" && st.profiles[other].displayId == BaseName(user.email)
    ensures var r := CheckAndCreate(st, user, suffixes).store;
      && !UniqueDisplayIds(r)
      && r.usernames[BaseName(user.email)] == user.uid
  {
    var r := CheckAndCreate(st, user, suffixes).store;
    assert r.profiles[user.uid].displayId == r.profiles[other].displayId;
  }

  /** An exhausted allocation can break uniqueness too: when the base name and all ten
      generated candidates are taken, the new profile shares its id with the last
      candidate's owner. */
  lemma ExhaustedAllocationCanDuplicateDisplayId(st: Store, user: AuthUser, other: Uid, suffixes: seq<int>)
    requires ValidSuffixes(suffixes) && user.uid !in st.profiles
    requires BaseName(user.email) in st.usernames
    requires forall k :: 0 <= k < MaxAttempts ==> Candidate(BaseName(user.email), suffixes[k]) in st.usernames
    requires other in st.profiles
    requires st.profiles[other].displayId == Candidate(BaseName(user.email), suffixes[MaxAttempts - 1])
    ensures !UniqueDisplayIds(CheckAndCreate(st, user, suffixes).store)
  {
    AllocateSpec(st.usernames, user.email, suffixes);
    FourDigitsNonEmpty(BaseName(user.email), suffixes[MaxAttempts - 1]);
    var r := CheckAndCreate(st, user, suffixes).store;
    assert r.profiles[user.uid].displayId == r.profiles[other].displayId;
  }

  lemma FourDigitsNonEmpty(base: string, suffix: int)
    requires 1000 <= suffix <= 9999
    ensures Candidate(base, suffix) != ""
  {
    Text.FourDigits(suffix);
  }

  // ---------------------------------------------------------------- reading profiles

  /** The inference rule applied to a profile's own industry and skills, as strings. */
  function InferredDomain(p: Profile): (d: seq<Json>)
    ensures |d| > 0
  {
    Strings(InferDomains(PreferredIndustry(p), p.skills))
  }

  /** `fetchUserProfileFromDb(uid)`: the stored profile, with the inferred domain list filled
      in when the stored list is missing or empty (in memory only, not written back). */
  function LoadProfile(st: Store, uid: Uid): (r: Option<Profile>)
    ensures r.Some? <==> uid in st.profiles
    ensures r.Some? ==> r.value.domain.Some? && |r.value.domain.value| > 0
    ensures r.Some? && st.profiles[uid].domain.Some? && st.profiles[uid].domain.value != [] ==> r.value == st.profiles[uid]
    ensures r.Some? ==> r.value.(domain := st.profiles[uid].domain) == st.profiles[uid]
    ensures r.Some? && (st.profiles[uid].domain.None? || st.profiles[uid].domain.value == []) ==>
      r.value.domain == Some(InferredDomain(st.profiles[uid]))
  {
    if uid !in st.profiles then None
    else
      var p := st.profiles[uid];
      if p.domain.None? || p.domain.value == [] then Some(p.(domain := Some(InferredDomain(p))))
      else Some(p)
  }

  /** Result of `fetchUserFromExternalAPI`: the cached profile afterwards, and the response
      body returned, or `None` when the call threw. */
  datatype Fetched = Fetched(cached: Option<Profile>, returned: Option<Json>)

  /** `fetchUserFromExternalAPI(displayId)` given the gateway's reply. A body whose
      `message.domains` is an array replaces the cached domain list (creating an empty
      cached profile if there was none); on failure the inference rule fills in a
      missing list only — an empty list counts as present here — and the error is rethrown. */
  function ExternalFetch(cached: Option<Profile>, reply: Reply): (r: Fetched)
    ensures reply.Err? ==> r.returned.None?
    ensures reply.Ok? ==> r.returned == Some(reply.data)
    ensures reply.Err? && cached.Some? && cached.value.domain.Some? ==> r.cached == cached
    ensures reply.Err? && cached.Some? && cached.value.domain.None? ==>
      r.cached == Some(cached.value.(domain := Some(InferredDomain(cached.value))))
    ensures cached.None? && reply.Err? ==> r.cached.None?
    ensures reply.Ok? && Member(Member(reply.data, "message"), "domains").JArr? ==>
      r.cached.Some? && r.cached.value.domain == Some(Member(Member(reply.data, "message"), "domains").items)
      && (cached.Some? ==> r.cached.value.(domain := cached.value.domain) == cached.value)
      && (cached.None? ==> r.cached.value == EmptyProfile.(domain := r.cached.value.domain))
    ensures reply.Ok? && !Member(Member(reply.data, "message"), "domains").JArr? ==> r.cached == cached
  {
    match reply
    case Ok(data) =>
      var ds := Member(Member(data, "message"), "domains");
      if ds.JArr? then
        var base := if cached.Some? then cached.value else EmptyProfile;
        Fetched(Some(base.(domain := Some(ds.items))), Some(data))
      else Fetched(cached, Some(data))
    case Err =>
      if cached.Some? && cached.value.domain.None? then
        Fetched(Some(cached.value.(domain := Some(InferredDomain(cached.value)))), None)
      else Fetched(cached, None)
  }

  /** Both call sites apply the same rule: a profile loaded without a domain list and one
      whose external fetch failed without a domain list get the same inferred list. */
  lemma CallSitesAgree(st: Store, uid: Uid)
    requires uid in st.profiles && st.profiles[uid].domain.None?
    ensures LoadProfile(st, uid) == ExternalFetch(Some(st.profiles[uid]), Err).cached
  {
  }
}

=== FILE: router.dfy ===
/** The client's route table and navigation guard (src/router/index.js). Route matching
    follows the router's defaults: each record's path is compiled into a list of segments; a
    path matches when its own segments line up with the pattern's, static segments comparing
    case-insensitively and a `:name` segment matching any non-empty segment; one trailing
    slash is ignored. */
module Router {
  import opened Text

  /** A route record together with its compiled pattern. */
  datatype RouteRecord = RouteRecord(path: string, name: string, requiresAuth: bool, pattern: seq<string>)

  const Routes: seq<RouteRecord> := [
    RouteRecord("/", "home", false, []),
    RouteRecord("/login", "login", false, ["login"]),
    RouteRecord("/profile", "profile", true, ["profile"]),
    RouteRecord("/match", "match", true, ["match"]),
    RouteRecord("/resume", "resume", true, ["resume"]),
    RouteRecord("/jobs", "jobs", true, ["jobs"]),
    RouteRecord("/job/:jobData", "job-detail", true, ["job", ":jobData"])]

  /** `s.split('/')`. */
  function Split(s: string): (r: seq<string>)
    ensures |r| > 0
    ensures forall i :: 0 <= i < |r| ==> '/' !in r[i]
  {
    if s == [] then [""]
    else
      var rest := Split(s[1..]);
      if s[0] == '/' then [""] + rest else [[s[0]] + rest[0]] + rest[1..]
  }

  /** The segments after the leading slash, one trailing empty segment (a trailing slash)
      dropped. */
  function Segments(path: string): seq<string> {
    var parts := Split(path)[1..];
    if |parts| > 0 && parts[|parts| - 1] == "" then parts[..|parts| - 1] else parts
  }

  /** A record's pattern is its path compiled. */
  predicate Compiled(r: RouteRecord) {
    r.pattern == Segments(r.path)
  }

  predicate IsParam(segment: string) {
    |segment| > 0 && segment[0] == ':'
  }

  predicate SegmentMatches(pattern: string, segment: string) {
    if IsParam(pattern) then segment != "" else Lower(pattern) == Lower(segment)
  }

  predicate Matches(pattern: seq<string>, path: string) {
    var ss := Segments(path);
    |path| > 0 && path[0] == '/' && |pattern| == |ss| && forall i :: 0 <= i < |pattern| ==> SegmentMatches(pattern[i], ss[i])
  }

  /** `to.matched.some(record => record.meta.requiresAuth)`. */
  predicate RequiresAuth(path: string) {
    exists i :: 0 <= i < |Routes| && Routes[i].requiresAuth && Matches(Routes[i].pattern, path)
  }

  /** The outcome of `await getCurrentUser()`: the truthiness of the user it resolved to,
      or a failure. */
  datatype Session = Resolved(loggedIn: bool) | ResolveFailed

  /** `next()` or `next(path)`. */
  datatype Decision = Proceed | RedirectTo(target: string)

  function Guard(requiresAuth: bool, path: string, session: Session): Decision {
    match session
    case Resolved(loggedIn) =>
      if requiresAuth && !loggedIn then RedirectTo("/login")
      else if path == "/login" && loggedIn then RedirectTo("/")
      else Proceed
    case ResolveFailed =>
      if requiresAuth then RedirectTo("/login") else Proceed
  }

  function Navigate(path: string, session: Session): Decision {
    Guard(RequiresAuth(path), path, session)
  }

  /** The guard as a decision table: it sends to `/login` exactly when the route is protected
      and no user is known to be signed in; it sends to `/` exactly when a signed-in user asks
      for exactly `/login`; otherwise navigation proceeds. */
  lemma GuardSpec(requiresAuth: bool, path: string, session: Session)
    ensures Guard(requiresAuth, path, session) == RedirectTo("/login")
      <==> requiresAuth && session != Resolved(true)
    ensures Guard(requiresAuth, path, session) == RedirectTo("/")
      <==> path == "/login" && session == Resolved(true)
    ensures Guard(requiresAuth, path, session).RedirectTo? ==>
      Guard(requiresAuth, path, session).target == "/login" || Guard(requiresAuth, path, session).target == "/"
  {
  }

  /** The table marks exactly the profile, match, resume, jobs and job-detail routes. */
  lemma ProtectedRouteNames()
    ensures forall i :: 0 <= i < |Routes| ==>
      (Routes[i].requiresAuth <==> Routes[i].name in ["profile", "match", "resume", "jobs", "job-detail"])
  {
  }

  lemma RootSegments()
    ensures Segments("/") == []
  {
    assert Split("/") == ["", ""];
  }

  lemma StaticSegments(path: string, name: string)
    requires path == "/" + name && name != "" && '/' !in name
    ensures Segments(path) == [name]
  {
    SplitPlain(name);
    assert path[1..] == name;
    assert Split(path) == [""] + Split(name);
  }

  lemma SplitPlain(s: string)
    requires '/' !in s
    ensures Split(s) == [s]
  {
    if s != [] {
      SplitPlain(s[1..]);
      assert [s[0]] + s[1..] == s;
    }
  }

  /** A slash-free prefix joins the first piece of the split. */
  lemma {:induction false} SplitPrefix(a: string, s: string)
    requires '/' !in a
    ensures Split(a + s) == [a + Split(s)[0]] + Split(s)[1..]
    decreases |a|
  {
    var parts := Split(s);
    if a == [] {
      assert a + s == s;
      assert a + parts[0] == parts[0];
      assert parts == [parts[0]] + parts[1..];
    } else {
      SplitPrefix(a[1..], s);
      assert (a + s)[1..] == a[1..] + s;
      assert (a + s)[0] == a[0] && a[0] != '/';
      var rest := Split(a[1..] + s);
      assert rest == [a[1..] + parts[0]] + parts[1..];
      assert rest[0] == a[1..] + parts[0];
      assert rest[1..] == parts[1..];
      assert [a[0]] + (a[1..] + parts[0]) == a + parts[0];
    }
  }

  lemma TwoSegments(path: string, a: string, b: string)
    requires path == "/" + a + "/" + b && a != "" && b != "" && '/' !in a && '/' !in b
    ensures Segments(path) == [a, b]
  {
    SplitPlain(b);
    assert Split("/" + b) == [""] + Split(b) by { assert ("/" + b)[1..] == b; }
    SplitPrefix(a, "/" + b);
    assert path == "/" + (a + ("/" + b));
    assert path[1..] == a + ("/" + b);
    assert Split(path) == [""] + Split(a + ("/" + b));
    assert Split("/" + b) == ["", b];
    assert a + "" == a;
    assert Split(a + ("/" + b)) == [a, b];
    assert Split(path)[1..] == [a, b];
  }

  lemma JobDetailSegments()
    ensures Segments("/job/:jobData") == ["job", ":jobData"]
  {
    TwoSegments("/job/:jobData", "job", ":jobData");
  }

  /** `Lower` leaves a string without upper-case letters as it is. */
  lemma LowerIdentity(s: string)
    requires forall i :: 0 <= i < |s| ==> !('A' <= s[i] <= 'Z')
    ensures Lower(s) == s
  {
    LowerOf(s, s);
  }

  lemma LowerNames()
    ensures Lower("login") == "login" && Lower("profile") == "profile" && Lower("match") == "match"
    ensures Lower("resume") == "resume" && Lower("jobs") == "jobs" && Lower("job") == "job"
  {
    LowerIdentity("login");
    LowerIdentity("profile");
    LowerIdentity("match");
    LowerIdentity("resume");
    LowerIdentity("jobs");
    LowerIdentity("job");
  }

  /** Every record's pattern is its path compiled. */
  lemma RoutesCompiled()
    ensures forall i :: 0 <= i < |Routes| ==> Compiled(Routes[i])
  {
    forall i | 0 <= i < |Routes|
      ensures Compiled(Routes[i])
    {
      RouteCompiled(i);
    }
  }

  lemma RouteCompiled(i: nat)
    requires i < |Routes|
    ensures Compiled(Routes[i])
  {
    if i == 0 {
      RootSegments();
    } else if i < 6 {
      StaticCompiled(Routes[i]);
    } else {
      JobDetailSegments();
    }
  }

  /** A record whose path is one static segment compiles to that segment. */
  lemma StaticCompiled(r: RouteRecord)
    requires |r.path| > 1 && r.path[0] == '/' && '/' !in r.path[1..] && r.pattern == [r.path[1..]]
    ensures Compiled(r)
  {
    assert r.path == "/" + r.path[1..];
    StaticSegments(r.path, r.path[1..]);
  }

  /** A one-segment static pattern matches by the lower-cased segment. */
  lemma MatchesStatic(name: string, path: string)
    requires !IsParam(name) && Lower(name) == name
    ensures Matches([name], path) <==>
      |path| > 0 && path[0] == '/' && |Segments(path)| == 1 && Lower(Segments(path)[0]) == name
  {
    if |path| > 0 && path[0] == '/' && |Segments(path)| == 1 && Lower(Segments(path)[0]) == name {
      assert SegmentMatches([name][0], Segments(path)[0]);
    }
  }

  /** A static segment followed by a parameter. */
  lemma MatchesStaticThenParam(name: string, param: string, path: string)
    requires !IsParam(name) && IsParam(param) && Lower(name) == name
    ensures Matches([name, param], path) <==>
      |path| > 0 && path[0] == '/' && |Segments(path)| == 2 && Lower(Segments(path)[0]) == name && Segments(path)[1] != ""
  {
    var ps, ss := [name, param], Segments(path);
    if |path| > 0 && path[0] == '/' && |ss| == 2 && Lower(ss[0]) == name && ss[1] != "" {
      assert SegmentMatches(ps[0], ss[0]) && SegmentMatches(ps[1], ss[1]);
    }
    if Matches(ps, path) {
      assert SegmentMatches(ps[0], ss[0]) && SegmentMatches(ps[1], ss[1]);
    }
  }

  /** The protected paths, independently of the table: one segment naming `profile`, `match`,
      `resume` or `jobs` in any letter case, or `job` followed by one non-empty segment. */
  predicate IsProtectedPath(path: string) {
    var ss := Segments(path);
    |path| > 0 && path[0] == '/' &&
    ((|ss| == 1 && (Lower(ss[0]) == "profile" || Lower(ss[0]) == "match" || Lower(ss[0]) == "resume" || Lower(ss[0]) == "jobs"))
     || (|ss| == 2 && Lower(ss[0]) == "job" && ss[1] != ""))
  }

  /** `some` over the table: only the five marked routes can make a path protected. */
  lemma RequiresAuthUnfolded(path: string)
    ensures RequiresAuth(path) <==>
      Matches(["profile"], path) || Matches(["match"], path) || Matches(["resume"], path)
      || Matches(["jobs"], path) || Matches(["job", ":jobData"], path)
  {
    if RequiresAuth(path) {
      var i :| 0 <= i < |Routes| && Routes[i].requiresAuth && Matches(Routes[i].pattern, path);
      assert 2 <= i;
    } else {
      assert !(Routes[2].requiresAuth && Matches(Routes[2].pattern, path));
      assert !(Routes[3].requiresAuth && Matches(Routes[3].pattern, path));
      assert !(Routes[4].requiresAuth && Matches(Routes[4].pattern, path));
      assert !(Routes[5].requiresAuth && Matches(Routes[5].pattern, path));
      assert !(Routes[6].requiresAuth && Matches(Routes[6].pattern, path));
    }
  }

  /** A path is protected exactly when it has one of the protected shapes. */
  lemma ProtectedPaths(path: string)
    ensures RequiresAuth(path) <==> IsProtectedPath(path)
  {
    RequiresAuthUnfolded(path);
    LowerNames();
    MatchesStatic("profile", path);
    MatchesStatic("match", path);
    MatchesStatic("resume", path);
    MatchesStatic("jobs", path);
    MatchesStaticThenParam("job", ":jobData", path);
  }

  /** A path with no segments, or whose only segment is `login` in any letter case, is not
      protected. */
  lemma LoginShapedUnprotected(path: string)
    requires Segments(path) == [] || (|Segments(path)| == 1 && Lower(Segments(path)[0]) == "login")
    ensures !RequiresAuth(path)
  {
    ProtectedPaths(path);
  }

  /** The two entry points, `/` and `/login`, are not protected. */
  lemma EntryPointsUnprotected()
    ensures !RequiresAuth("/") && !RequiresAuth("/login")
  {
    RootUnprotected();
    LoginUnprotected();
  }

  lemma RootUnprotected()
    ensures !RequiresAuth("/")
  {
    RootSegments();
    LoginShapedUnprotected("/");
  }

  lemma LoginUnprotected()
    ensures !RequiresAuth("/login")
  {
    LoginPathUnprotected("/login", "login");
  }

  lemma LoginPathUnprotected(path: string, name: string)
    requires name == "login" && path == "/" + name
    ensures !RequiresAuth(path)
  {
    StaticSegments(path, name);
    LowerIdentity(name);
    LoginShapedUnprotected(path);
  }

  /** No redirect loop: wherever the guard sends a user, the guard then lets them through. */
  lemma NoRedirectLoop(path: string, session: Session)
    requires Navigate(path, session).RedirectTo?
    ensures Navigate(Navigate(path, session).target, session) == Proceed
  {
    EntryPointsUnprotected();
  }

  /** A signed-in user is never sent to the login page, and a user who is not signed in is
      never sent home. */
  lemma RedirectsMatchSession(path: string)
    ensures Navigate(path, Resolved(true)) != RedirectTo("/login")
    ensures Navigate(path, Resolved(false)) != RedirectTo("/")
    ensures Navigate(path, ResolveFailed) != RedirectTo("/")
  {
  }

  /** A failure to resolve the user is treated as signed out on protected routes and as
      signed in nowhere: it never redirects an unprotected route. */
  lemma ResolveFailureIsSignedOut(path: string)
    ensures Navigate(path, ResolveFailed) == (if RequiresAuth(path) then Navigate(path, Resolved(false)) else Proceed)
  {
  }

  /** Protection follows the route matcher, which ignores letter case and a trailing slash,
      while the redirect away from the login page compares the path exactly: `/PROFILE/` is
      protected, and a signed-in user asking for `/Login` is let through. */
  lemma MatcherAndGuardDisagreeOnCase()
    ensures Navigate("/PROFILE/", Resolved(false)) == RedirectTo("/login")
    ensures Navigate("/Login", Resolved(true)) == Proceed
    ensures Navigate("/login", Resolved(true)) == RedirectTo("/")
  {
    EntryPointsUnprotected();
    ProfileUpperProtected();
    LoginCapitalUnprotected();
  }

  /** One static segment with a trailing slash. */
  lemma StaticSegmentsTrailing(path: string, name: string)
    requires path == "/" + name + "/" && name != "" && '/' !in name
    ensures Segments(path) == [name]
  {
    SplitPrefix(name, "/");
    assert Split("/") == ["", ""];
    assert name + Split("/")[0] == name;
    assert Split(name + "/") == [name, ""];
    assert path[1..] == name + "/";
    assert Split(path) == [""] + Split(name + "/");
    assert Split(path)[1..] == [name, ""];
  }

  /** A single segment naming a protected route, in any letter case, is protected. */
  lemma OneSegmentProtected(path: string)
    requires |path| > 0 && path[0] == '/' && |Segments(path)| == 1 && Lower(Segments(path)[0]) == "profile"
    ensures RequiresAuth(path)
  {
    ProtectedPaths(path);
  }

  /** The profile route with a trailing slash, in a letter case other than the table's. */
  lemma TrailingSlashProtected(path: string, name: string)
    requires path == "/" + name + "/" && name != "" && '/' !in name && Lower(name) == "profile"
    ensures RequiresAuth(path)
  {
    StaticSegmentsTrailing(path, name);
    OneSegmentProtected(path);
  }

  lemma ProfileUpperProtected()
    ensures RequiresAuth("/PROFILE/")
  {
    UpperProfileProtected("/PROFILE/", "PROFILE");
  }

  lemma UpperProfileProtected(path: string, name: string)
    requires name == "PROFILE" && path == "/" + name + "/"
    ensures RequiresAuth(path)
  {
    LowerOf(name, "profile");
    TrailingSlashProtected(path, name);
  }

  lemma LoginCapitalUnprotected()
    ensures !RequiresAuth("/Login")
  {
    CapitalLoginUnprotected("/Login", "Login");
  }

  lemma CapitalLoginUnprotected(path: string, name: string)
    requires name == "Login" && path == "/" + name
    ensures !RequiresAuth(path)
  {
    StaticSegments(path, name);
    LowerOf(name, "login");
    LoginShapedUnprotected(path);
  }

  /** A job-detail path with any non-empty parameter is protected. */
  lemma JobDetailProtected(id: string)
    requires id != "" && '/' !in id
    ensures RequiresAuth("/job/" + id)
  {
    TwoSegments("/job/" + id, "job", id);
    LowerIdentity("job");
    ProtectedPaths("/job/" + id);
  }
}

=== FILE: sync.dfy ===
/** The client's push of a profile to the matching service through the gateway
    (`extractDomain` and `seedUserProfile` in src/stores/auth.js). The URL parser is a
    parameter: `hostOf(url)` is `new URL(url).hostname`, or `None` when the constructor throws. */
module Sync {
  import opened Common
  import opened Text
  import opened ProfileData

  /** `extractDomain(url)`: the host name with its first `www.` removed, or the URL itself
      when it does not parse. */
  function ExtractDomain(url: string, hostOf: string -> Option<string>): string {
    match hostOf(url)
    case None => url
    case Some(host) => ReplaceFirst(host, "www.", "")
  }

  /** The shapes of `extractDomain`: an unparsable URL comes back unchanged; a host without
      `www.` is returned as is; otherwise the first `www.` in the host, and only it, is removed
      (so a host starting with `www.` loses exactly that prefix). */
  lemma ExtractDomainSpec(url: string, hostOf: string -> Option<string>)
    ensures hostOf(url).None? ==> ExtractDomain(url, hostOf) == url
    ensures hostOf(url).Some? && !Contains(hostOf(url).value, "www.") ==> ExtractDomain(url, hostOf) == hostOf(url).value
    ensures hostOf(url).Some? && "www." <= hostOf(url).value ==> ExtractDomain(url, hostOf) == hostOf(url).value[4..]
    ensures hostOf(url).Some? && Contains(hostOf(url).value, "www.") ==> |ExtractDomain(url, hostOf)| == |hostOf(url).value| - 4
    ensures hostOf(url).Some? && Contains(hostOf(url).value, "www.") ==>
      var h := hostOf(url).value;
      var i := FirstOccurrence(h, "www.");
      ExtractDomain(url, hostOf) == h[..i] + h[i + 4..]
  {
    if hostOf(url).Some? {
      ReplaceFirstSpec(hostOf(url).value, "www.", "");
    }
  }

  /** `serverPayload`: what is posted to the gateway's `/api/update-user`. */
  datatype SyncPayload = SyncPayload(
    userId: string,
    industry: string,
    domains: seq<string>,
    details: Profile,
    links: seq<string>)

  /** `companyCareerPageUrls.map(extractDomain)`. */
  function ExtractDomains(urls: seq<string>, hostOf: string -> Option<string>): seq<string> {
    seq(|urls|, i requires 0 <= i < |urls| => ExtractDomain(urls[i], hostOf))
  }

  /** The payload built from a profile. */
  function BuildPayload(p: Profile, hostOf: string -> Option<string>): SyncPayload {
    var industry := if PreferredIndustry(p) == "" then "Technology" else PreferredIndustry(p);
    SyncPayload(p.displayId, industry, ExtractDomains(CareerPageUrls(p), hostOf), p, CareerPageUrls(p))
  }

  /** Result of `seedUserProfile`. `MissingUserId` and `PushFailed` are the two ways it throws;
      `Pushed` records the URL list sent to `update-urls`, when that call is made at all. */
  datatype SeedOutcome =
    | NothingToSend
    | MissingUserId
    | PushFailed(payload: SyncPayload)
    | Pushed(payload: SyncPayload, linkUpdate: Option<seq<string>>)

  /** `seedUserProfile(profileOverride)` with the cached profile `cached`, the outcome of the
      primary post and the outcome of the follow-up `update-urls` post, whose failure is
      caught and ignored. */
  function Seed(profileOverride: Option<Profile>, cached: Option<Profile>, hostOf: string -> Option<string>,
                primary: CallResult, linkUpdate: CallResult): SeedOutcome
  {
    var toSend := if profileOverride.Some? then profileOverride else cached;
    if toSend.None? then NothingToSend
    else if toSend.value.displayId == "" then MissingUserId
    else
      var payload := BuildPayload(toSend.value, hostOf);
      if primary == Failed then PushFailed(payload)
      else
        var urls := CareerPageUrls(toSend.value);
        Pushed(payload, if |urls| > 0 then Some(urls) else None)
  }

  /** What is sent: the user id is the non-empty display id; the industry is the preferred
      industry or `Technology`, never empty; `domains` lines up element by element with the
      career-page URLs through `extractDomain`; `links` is the raw URL list; `details` is the
      profile itself. */
  lemma BuildPayloadSpec(p: Profile, hostOf: string -> Option<string>)
    ensures var s := BuildPayload(p, hostOf);
      && s.userId == p.displayId
      && s.industry != ""
      && (PreferredIndustry(p) == "" ==> s.industry == "Technology")
      && (PreferredIndustry(p) != "" ==> s.industry == PreferredIndustry(p))
      && |s.domains| == |s.links| == |CareerPageUrls(p)|
      && s.links == CareerPageUrls(p)
      && (forall i :: 0 <= i < |s.links| ==> s.domains[i] == ExtractDomain(s.links[i], hostOf))
      && s.details == p
  {
  }

  /** The call discipline of `seedUserProfile`: nothing without a profile; an error before
      any call when the display id is empty; `update-urls` only after the primary post
      succeeded and only for a non-empty URL list, carrying exactly that list; the payload
      posted, whether the post succeeds or fails, is the one built from the profile sent
      (the override when there is one, else the cached profile); and the outcome of
      `update-urls` never changes the result. */
  lemma SeedSpec(profileOverride: Option<Profile>, cached: Option<Profile>, hostOf: string -> Option<string>,
                 primary: CallResult, linkUpdate: CallResult)
    ensures var r := Seed(profileOverride, cached, hostOf, primary, linkUpdate);
      var toSend := if profileOverride.Some? then profileOverride else cached;
      && (r.NothingToSend? <==> profileOverride.None? && cached.None?)
      && (r.MissingUserId? <==> toSend.Some? && toSend.value.displayId == "")
      && (r.Pushed? <==> toSend.Some? && toSend.value.displayId != "" && primary == Succeeded)
      && (r.PushFailed? <==> toSend.Some? && toSend.value.displayId != "" && primary == Failed)
      && ((r.Pushed? || r.PushFailed?) ==> r.payload == BuildPayload(toSend.value, hostOf))
      && (r.Pushed? ==>
            (&& r.payload.userId != ""
             && (r.linkUpdate.Some? <==> |r.payload.links| > 0)
             && (r.linkUpdate.Some? ==> r.linkUpdate.value == r.payload.links)))
      && r == Seed(profileOverride, cached, hostOf, primary, if linkUpdate == Succeeded then Failed else Succeeded)
  {
  }

  /** The documented example: a Google careers URL yields the
      domain `google.com` and keeps the URL itself as the link. */
  lemma GoogleCareersExample(p: Profile, hostOf: string -> Option<string>)
    requires CareerPageUrls(p) == ["https://www.google.com/careers"]
    requires hostOf("https://www.google.com/careers") == Some("www.google.com")
    ensures BuildPayload(p, hostOf).domains == ["google.com"]
    ensures BuildPayload(p, hostOf).links == ["https://www.google.com/careers"]
  {
    ExtractDomainSpec("https://www.google.com/careers", hostOf);
  }
}

=== FILE: text.dfy ===
/** String helpers with JavaScript semantics: `includes`, ASCII `toLowerCase`, `trim`,
    `replace` with a string pattern, and decimal rendering of integers. */
module Text {

  predicate IsDigit(c: char) { '0' <= c <= '9' }

  /** The class `[A-Za-z0-9]`. */
  predicate IsAlnum(c: char) { 'a' <= c <= 'z' || 'A' <= c <= 'Z' || IsDigit(c) }

  predicate AllAlnum(s: string) { forall i :: 0 <= i < |s| ==> IsAlnum(s[i]) }

  predicate AllDigits(s: string) { forall i :: 0 <= i < |s| ==> IsDigit(s[i]) }

  /** `s.includes(sub)`. */
  predicate Contains(s: string, sub: string)
    decreases |s|
  {
    sub <= s || (|s| > 0 && Contains(s[1..], sub))
  }

  /** An occurrence at position `i` makes `s.includes(sub)` true. */
  lemma {:induction false} ContainsAt(s: string, sub: string, i: nat)
    requires i + |sub| <= |s| && s[i..i + |sub|] == sub
    ensures Contains(s, sub)
    decreases i
  {
    if i == 0 {
      assert sub <= s;
    } else {
      assert s[1..][i - 1..i - 1 + |sub|] == sub;
      ContainsAt(s[1..], sub, i - 1);
    }
  }

  /** A pattern one of whose characters never occurs in `s` is not contained in it. */
  lemma {:induction false} NotContainsMissingChar(s: string, sub: string, j: nat)
    requires j < |sub| && forall i :: 0 <= i < |s| ==> s[i] != sub[j]
    ensures !Contains(s, sub)
    decreases |s|
  {
    if |sub| <= |s| {
      assert s[j] != sub[j];
    }
    if s != [] {
      NotContainsMissingChar(s[1..], sub, j);
    }
  }

  /** ASCII case mapping of `String.prototype.toLowerCase`. */
  function LowerChar(c: char): char {
    if 'A' <= c <= 'Z' then (c as int + 32) as char else c
  }

  function Lower(s: string): (r: string)
    ensures |r| == |s|
    ensures forall i :: 0 <= i < |s| ==> r[i] == LowerChar(s[i])
  {
    seq(|s|, i requires 0 <= i < |s| => LowerChar(s[i]))
  }

  /** `Lower` evaluated character by character. */
  lemma LowerOf(s: string, t: string)
    requires |s| == |t| && forall i :: 0 <= i < |s| ==> LowerChar(s[i]) == t[i]
    ensures Lower(s) == t
  {
  }

  /** The characters `String.prototype.trim` removes: WhiteSpace and LineTerminator of ECMA-262. */
  predicate IsJsSpace(c: char) {
    var n := c as int;
    n == 0x09 || n == 0x0A || n == 0x0B || n == 0x0C || n == 0x0D || n == 0x20 || n == 0xA0
    || n == 0x1680 || (0x2000 <= n <= 0x200A) || n == 0x2028 || n == 0x2029 || n == 0x202F
    || n == 0x205F || n == 0x3000 || n == 0xFEFF
  }

  /** Number of white-space characters at the start of `s`. */
  function LeadingSpace(s: string): (k: nat)
    ensures k <= |s|
    ensures forall i :: 0 <= i < k ==> IsJsSpace(s[i])
    ensures k < |s| ==> !IsJsSpace(s[k])
  {
    if s != [] && IsJsSpace(s[0]) then 1 + LeadingSpace(s[1..]) else 0
  }

  /** Number of white-space characters at the end of `s`. */
  function TrailingSpace(s: string): (k: nat)
    ensures k <= |s|
    ensures forall i :: |s| - k <= i < |s| ==> IsJsSpace(s[i])
    ensures k < |s| ==> !IsJsSpace(s[|s| - k - 1])
  {
    if s != [] && IsJsSpace(s[|s| - 1]) then 1 + TrailingSpace(s[..|s| - 1]) else 0
  }

  /** `s.trim()`: `s` without its leading and trailing white space. */
  function Trim(s: string): string
  {
    var t := s[LeadingSpace(s)..];
    t[..|t| - TrailingSpace(t)]
  }

  predicate AllSpace(s: string) { forall i :: 0 <= i < |s| ==> IsJsSpace(s[i]) }

  /** `s.trim()` is empty exactly when every character of `s` is white space; otherwise it
      neither starts nor ends with white space; and it is `s` with only white space removed,
      all of it at the two ends. */
  lemma TrimIsBlankIff(s: string)
    ensures Trim(s) == [] <==> AllSpace(s)
    ensures Trim(s) != [] ==> !IsJsSpace(Trim(s)[0]) && !IsJsSpace(Trim(s)[|Trim(s)| - 1])
    ensures var k := LeadingSpace(s);
      && k + |Trim(s)| <= |s|
      && s == s[..k] + Trim(s) + s[k + |Trim(s)|..]
      && AllSpace(s[..k]) && AllSpace(s[k + |Trim(s)|..])
  {
    var k := LeadingSpace(s);
    var t := s[k..];
    var m := TrailingSpace(t);
    var r := Trim(s);
    assert r == t[..|t| - m];
    assert s[k + |r|..] == t[|t| - m..];
    assert s == s[..k] + r + s[k + |r|..];
    if AllSpace(s) {
      assert k == |s|;
    }
  }

  /** `s.replace(pat, rep)` with a string pattern: only the first occurrence is replaced. */
  function ReplaceFirst(s: string, pat: string, rep: string): (r: string)
    decreases |s|
  {
    if pat <= s then rep + s[|pat|..]
    else if s == [] then s
    else [s[0]] + ReplaceFirst(s[1..], pat, rep)
  }

  /** `pat` occurs in `s` starting at position `i`. */
  predicate OccursAt(s: string, pat: string, i: nat) {
    i + |pat| <= |s| && s[i..i + |pat|] == pat
  }

  /** The position of the first occurrence of `pat` in `s` (`s.indexOf(pat)`). */
  function FirstOccurrence(s: string, pat: string): (i: nat)
    requires Contains(s, pat)
    ensures OccursAt(s, pat, i)
    ensures forall j :: 0 <= j < i ==> !OccursAt(s, pat, j)
    decreases |s|
  {
    if pat <= s then 0
    else
      var i := FirstOccurrence(s[1..], pat);
      OccursShift(s, pat, i + 1);
      NoEarlierOccurrence(s, pat, i);
      i + 1
  }

  /** Away from the start, an occurrence in `s` is one in its tail, one position earlier. */
  lemma OccursShift(s: string, pat: string, j: nat)
    requires 0 < j && |s| > 0
    ensures OccursAt(s, pat, j) <==> OccursAt(s[1..], pat, j - 1)
  {
    if j + |pat| <= |s| {
      assert s[j..j + |pat|] == s[1..][j - 1..j - 1 + |pat|];
    }
  }

  lemma NoEarlierOccurrence(s: string, pat: string, i: nat)
    requires |s| > 0 && !(pat <= s)
    requires forall j :: 0 <= j < i ==> !OccursAt(s[1..], pat, j)
    ensures forall j :: 0 <= j < i + 1 ==> !OccursAt(s, pat, j)
  {
    forall j | 0 <= j < i + 1 ensures !OccursAt(s, pat, j) {
      if j > 0 {
        OccursShift(s, pat, j);
      } else {
        PrefixOccurs(s, pat);
      }
    }
  }

  lemma PrefixOccurs(s: string, pat: string)
    ensures pat <= s <==> OccursAt(s, pat, 0)
  {
    if OccursAt(s, pat, 0) {
      assert s[..|pat|] == pat;
    }
  }

  /** What `ReplaceFirst` does: nothing when the pattern does not occur; otherwise the first
      occurrence, and only it, is exchanged for `rep`. */
  lemma {:induction false} ReplaceFirstSpec(s: string, pat: string, rep: string)
    ensures !Contains(s, pat) ==> ReplaceFirst(s, pat, rep) == s
    ensures pat <= s ==> ReplaceFirst(s, pat, rep) == rep + s[|pat|..]
    ensures Contains(s, pat) ==>
      var i := FirstOccurrence(s, pat);
      ReplaceFirst(s, pat, rep) == s[..i] + rep + s[i + |pat|..]
    ensures Contains(s, pat) ==> |ReplaceFirst(s, pat, rep)| == |s| - |pat| + |rep|
    decreases |s|
  {
    if !(pat <= s) && s != [] {
      ReplaceFirstSpec(s[1..], pat, rep);
    }
    if Contains(s, pat) {
      ReplaceFirstAtFirst(s, pat, rep);
    }
  }

  lemma {:induction false} ReplaceFirstAtFirst(s: string, pat: string, rep: string)
    requires Contains(s, pat)
    ensures var i := FirstOccurrence(s, pat);
      ReplaceFirst(s, pat, rep) == s[..i] + rep + s[i + |pat|..]
    decreases |s|
  {
    if !(pat <= s) {
      var t := s[1..];
      ReplaceFirstAtFirst(t, pat, rep);
      var i := FirstOccurrence(t, pat);
      assert FirstOccurrence(s, pat) == i + 1;
      ConsSplice(s, i, |pat|, rep);
    }
  }

  /** Splicing at `i + 1` in `s` is keeping `s[0]` and splicing at `i` in the tail. */
  lemma ConsSplice(s: string, i: nat, n: nat, rep: string)
    requires i + 1 + n <= |s|
    ensures s[..i + 1] + rep + s[i + 1 + n..] == [s[0]] + (s[1..][..i] + rep + s[1..][i + n..])
  {
    assert s[..i + 1] == [s[0]] + s[1..][..i];
    assert s[i + 1 + n..] == s[1..][i + n..];
  }

  function DigitChar(d: nat): char
    requires d < 10
  {
    ['0', '1', '2', '3', '4', '5', '6', '7', '8', '9'][d]
  }

  /** Decimal rendering of a natural number, as in a template literal `${n}`. */
  function NatToDecimal(n: nat): (r: string)
    ensures |r| > 0 && AllDigits(r)
    decreases n
  {
    if n < 10 then [DigitChar(n)] else NatToDecimal(n / 10) + [DigitChar(n % 10)]
  }

  /** `String(n)` for an integer whose magnitude is below 10^21. */
  function IntToDecimal(n: int): string
  {
    if n < 0 then "-" + NatToDecimal(-n) else NatToDecimal(n)
  }

  /** The value of a string of decimal digits: the inverse of `NatToDecimal`. */
  function DecimalValue(s: string): nat
    requires AllDigits(s)
  {
    if s == [] then 0 else DecimalValue(s[..|s| - 1]) * 10 + (s[|s| - 1] as int - '0' as int)
  }

  lemma {:induction false} DecimalRoundTrip(n: nat)
    ensures DecimalValue(NatToDecimal(n)) == n
    decreases n
  {
    if n >= 10 {
      DecimalRoundTrip(n / 10);
      var r := NatToDecimal(n);
      assert r[..|r| - 1] == NatToDecimal(n / 10);
    }
  }

  /** A four-digit number renders as exactly four digits with no leading zero. */
  lemma FourDigits(n: int)
    requires 1000 <= n <= 9999
    ensures |IntToDecimal(n)| == 4 && AllDigits(IntToDecimal(n)) && IntToDecimal(n)[0] != '0'
  {
    var a := n / 10;
    var b := a / 10;
    var c := b / 10;
    assert 1 <= c <= 9;
    assert NatToDecimal(c) == [DigitChar(c)];
    assert NatToDecimal(b) == NatToDecimal(c) + [DigitChar(b % 10)];
    assert NatToDecimal(a) == NatToDecimal(b) + [DigitChar(a % 10)];
    assert NatToDecimal(n) == NatToDecimal(a) + [DigitChar(n % 10)];
  }
}
